=== FILE: README.md ===
# A Dafny model of pieces of the IoTGateway core

This project models, in Dafny, a set of small deterministic parts of the
IoTGateway repository (the Waher libraries). It then proves properties of the
model: round trips, bounds, invariants and reference definitions. The parts are:

- **Full-text search: regex keyword resolution.** A regex keyword resolves to
  the token references of the full-text index. With a constant prefix, the
  keyword scans the key range `[prefix, prefix with its last UTF-16 unit + 1)`.
  Without one, it scans every key. A key is kept only on an anchored full
  match whose stored value is a `TokenReferences`. Keys are UTF-16 code-unit
  strings, so the ordinal order and the wrap-around of `char++` are exact.
- **SASL hashed authentication.** `H(string)` hashes the UTF-8 bytes, `KD`
  hashes `k:s`, and `HMAC` follows section 2 of RFC 2104. The RFC's steps are:
  - a key longer than 64 bytes is hashed;
  - a key shorter than 64 bytes is zero-padded to 64;
  - the inner pad (0x36) and the outer pad (0x5c) are applied;
  - the result is nested hashing.

  The hash is a parameter.
- **HTTP reverse proxy: string and header logic.** This covers:
  - the remote base URI and the target URI;
  - the `X-Forwarded-For`, `X-Forwarded-Proto`, `X-Forwarded-Host`, `Forwarded` and `Via` headers;
  - the `Authorization` split and the `Cookie` interpretation;
  - the routing of incoming header fields onto the proxied request.
- **CSV codec.** Its content-type and file-extension tables, `Decodes`,
  `Encodes` and the type dispatch of `Encode`.
- **Smart-contract human-readable text.** The inline `Image` has validation,
  XML serialization and Markdown. The `InlineBlock` has validation and Markdown.
- **Semantic web values.** `UInt16Literal` covers parsing of `xsd:unsignedShort`,
  lexical equality and hash. `BlankNode` covers its `_:` label, equality and hash.
- **Script URI parameter.** The validation branches of `SetParameter`.

Collaborators whose code is not part of this model are function-valued
parameters:
- the hash function, the regex matcher and the constant prefix of a pattern;
- the absolute-URI test and the image decoder;
- Base64, XML encoding and the CSV text encoders;
- `InternetContent.IsAccepted`, `CommonTypes.ParseFieldValues`, the `Accept` parser and `String.GetHashCode`.

A `null` reference is `None` of `Option`, or the empty string where the
source treats `null` and `""` alike. A thrown exception is a `Failure` of
`Result` that carries the exception's type name.

Modules: `Base` (Option, Result, byte), `Text`, `Decimal` and `Utf8`
(shared string helpers), `RegexKeywords`, `HashedAuthentication`,
`ReverseProxy`, `CsvCodec`, `HumanReadable`, `SemanticModel`,
`ScriptUriParameter`.

A few observations about the source follow from the proofs:
- A constant prefix ending in U+FFFF makes the bound wrap to U+0000, so the exclusive bound sorts below the prefix. No key lies between them (`RegexKeywords.WrappedRangeEmpty`). If `GetEntriesAsync` returns nothing for such an inverted range, as modelled, the keyword finds nothing.
- The bounded scan equals the full scan only when every fully matching key starts with the prefix. The keyword compiles with `IgnoreCase`, so the assumption can fail. Suppose the constant-prefix function returned `Kil` for `Kil.*`. Then a key `kil` matches the pattern, and the ordinal range `["Kil", "Kim")` misses it (`RegexKeywords.BoundedScanNeedsPrefixAssumption`). Whether the prefix function returns a case-sensitive prefix for such a pattern is not part of this model; the repository's own search test at `Persistence/Waher.Persistence.FullTextSearch.Test/SearchTests.cs` line 165 expects `/Kil.*/` to find results.
- A remote folder that does not start with `/` is glued to the host or port of the base URI. The round trip holds only for folders that are empty or start with `/` (`ReverseProxy.BaseUriRoundTrip`).
- The three `System.Net.Cookie` constructor branches (lines 383, 385 and 387) all give the same observable cookie: the name and value of the first pair, and the last `path` and `domain` of the later pairs. Each constructor throws `CookieException` for a name that is empty, starts with `$` or a space, ends with a space, or holds a tab, CR, LF, `=`, `;` or `,`. Only the general handler at line 535 catches it, so a header `Cookie: $Version=1; a=b` fails the whole forwarding (`ReverseProxy.CookieOfMeaning`, `ReverseProxy.VersionCookieRefused`).

## Model

| member | source | states |
|---|---|---|
| RegexKeywords.EqualsProperties | Persistence/Waher.Persistence.FullTextSearch/Keywords/RegexKeyword.cs:36-48 | Two regex keywords are equal iff their expression strings are equal. Equality is an equivalence and never holds against another kind of object. Equal keywords have equal order complexity (the expression length), and `ToString` gives back the expression. |
| RegexKeywords.EqualsIsCaseSensitive | Persistence/Waher.Persistence.FullTextSearch/Keywords/RegexKeyword.cs:17-20 | `Kil.*` and `kil.*` are different keywords, although both compile to the same case-insensitive regex. |
| RegexKeywords.UpperBound | Persistence/Waher.Persistence.FullTextSearch/Keywords/RegexKeyword.cs:79-81 | The exclusive bound has the prefix's length and all but its last unit. Its last unit is one higher, or wraps to 0 when it was U+FFFF. |
| RegexKeywords.PrefixBelowBound | Persistence/Waher.Persistence.FullTextSearch/Keywords/RegexKeyword.cs:79-81 | When the last unit is below U+FFFF, the prefix is ordinally below its bound. |
| RegexKeywords.RangeIsPrefix | Persistence/Waher.Persistence.FullTextSearch/Keywords/RegexKeyword.cs:79-83 | When the last unit is below U+FFFF, a key lies in `[prefix, bound)` exactly when it starts with the prefix. |
| RegexKeywords.WrappedRangeEmpty | Persistence/Waher.Persistence.FullTextSearch/Keywords/RegexKeyword.cs:79-83 | When the prefix ends in U+FFFF, no key lies in the scanned range. |
| RegexKeywords.EntriesBetweenIsWithPrefix | Persistence/Waher.Persistence.FullTextSearch/Keywords/RegexKeyword.cs:83 | The entries of the range are exactly the entries whose key starts with the prefix, in index order. |
| RegexKeywords.LookupFindsEntry | Persistence/Waher.Persistence.FullTextSearch/Keywords/RegexKeyword.cs:71 | On an ordinally sorted index, looking up a key of the index finds the value stored with it. |
| RegexKeywords.MatchingExactly | Persistence/Waher.Persistence.FullTextSearch/Keywords/RegexKeyword.cs:68-73 | A key is returned only if the match succeeds at index 0 over the whole key and its value is a `TokenReferences`. Every such entry is returned. |
| RegexKeywords.MatchingInKeyOrder | Persistence/Waher.Persistence.FullTextSearch/Keywords/RegexKeyword.cs:66-75 | On a sorted index, the results come in strictly increasing key order. |
| RegexKeywords.PrefixLosesNothing | Persistence/Waher.Persistence.FullTextSearch/Keywords/RegexKeyword.cs:83-90 | When every fully matching key starts with the prefix, filtering on the prefix loses no result. |
| RegexKeywords.BoundedScanIsFullScan | Persistence/Waher.Persistence.FullTextSearch/Keywords/RegexKeyword.cs:57-91 | Under that assumption, and with a prefix not ending in U+FFFF, the bounded scan returns exactly what the full scan returns. |
| RegexKeywords.BoundedScanNeedsPrefixAssumption | Persistence/Waher.Persistence.FullTextSearch/Keywords/RegexKeyword.cs:79-90 | The pattern is compiled case-insensitively (line 20). Without the assumption, the two scans can differ: with a prefix of `Kil` given for `Kil.*`, a case-insensitive match `kil` lies outside `["Kil", "Kim")`. |
| RegexKeywords.GetTokenReferences | Persistence/Waher.Persistence.FullTextSearch/Keywords/RegexKeyword.cs:55-94 | With no prefix, the result is exactly the selected entries of the whole index in key order. With a prefix, it is the selected entries of the range: those starting with the prefix, or none when the prefix ends in U+FFFF. Under the prefix assumption, it equals the full scan. |
| HashedAuthentication.KDBytes | Networking/Waher.Networking.SASL/HashedAuthenticationMechanism.cs:68-71 | `KD(k, s)` hashes the UTF-8 bytes of `k`, then the byte 0x3A, then the UTF-8 bytes of `s`. |
| HashedAuthentication.KDInputInjective | Networking/Waher.Networking.SASL/HashedAuthenticationMechanism.cs:68-71 | Two pairs whose `k` holds no colon give the same KD hash input only when they are the same pair. |
| Utf8.DecodeEncode | Networking/Waher.Networking.SASL/HashedAuthenticationMechanism.cs:31 | The UTF-8 encoding of a string of Unicode scalar values, as used by `H(string)`, decodes back to the string. |
| Utf8.EncodeInjective | Networking/Waher.Networking.SASL/HashedAuthenticationMechanism.cs:31 | Distinct scalar-value strings have distinct UTF-8 encodings, so `H(string)` hashes distinct inputs for them. |
| HashedAuthentication.NormalizeKey | Networking/Waher.Networking.SASL/HashedAuthenticationMechanism.cs:43-48 | A key of at most 64 bytes is kept as the prefix of a 64-byte block. A longer key is replaced by its hash, which is padded to 64 bytes when it fits. Every byte after the kept ones is zero. |
| HashedAuthentication.XorPadInvolution | Networking/Waher.Networking.SASL/HashedAuthenticationMechanism.cs:53-57 | Applying the same pad twice to the first 64 bytes restores the key. So a second as-written call restores a 64-byte key that the first call padded. |
| HashedAuthentication.HmacIsRfc2104 | Networking/Waher.Networking.SASL/HashedAuthenticationMechanism.cs:41-60 | The HMAC equals the reference of section 2 of RFC 2104: `H(K xor opad, H(K xor ipad, text))` with K zero-extended to 64 bytes. This assumes a hash output of at most 64 bytes whenever the key is hashed. |
| HashedAuthentication.HmacAsWritten | Networking/Waher.Networking.SASL/HashedAuthenticationMechanism.cs:41-60 | The array code as written returns the HMAC of the caller's key. A 64-byte key array is left XORed with the outer pad; any other key is left unchanged. |
| HashedAuthentication.KeyMutationWitness | Networking/Waher.Networking.SASL/HashedAuthenticationMechanism.cs:43-56 | For a 64-byte key, the key after one call differs from the key before it, and a second call restores it. The caller's key therefore alternates between K and K xor opad, and every second call authenticates with the wrong key. |
| HashedAuthentication.HmacCorrected | Networking/Waher.Networking.SASL/HashedAuthenticationMechanism.cs:41-60 | With the key copied before padding, the array code returns the RFC 2104 HMAC and modifies no array. |
| ReverseProxy.BaseUri | Networking/Waher.Networking.HTTP/HttpReverseProxyResource.cs:61-85 | The base URI starts with `https://` iff encryption is on, and with `http://` otherwise. |
| ReverseProxy.PortShownIff | Networking/Waher.Networking.HTTP/HttpReverseProxyResource.cs:76-80 | The authority starts with the host, whatever the host holds (an IPv6 literal such as `[::1]` included). After the host, `:` appears exactly when the port differs from the scheme's default (80 or 443), and the text after it reads back as the port. |
| ReverseProxy.BaseUriRoundTrip | Networking/Waher.Networking.HTTP/HttpReverseProxyResource.cs:61-85 | Encryption, host, port and folder are read back from the base URI, provided the host holds neither `:` nor `/` and the folder is empty or starts with `/`. |
| ReverseProxy.TargetUriReadBack | Networking/Waher.Networking.HTTP/HttpReverseProxyResource.cs:271-280 | Provided neither the base URI nor the sub-path holds `?`, splitting the target URI at its first `?` gives base URI plus sub-path, and then the query. There is no `?` when the query is empty. |
| ReverseProxy.ChainHops | Networking/Waher.Networking.HTTP/HttpReverseProxyResource.cs:430-465 | Provided the new entry holds no `,`, `X-Forwarded-For` and `Via` add exactly one comma-separated entry (leading white space trimmed), in front of the incoming entries. |
| ReverseProxy.ForwardedReadBack | Networking/Waher.Networking.HTTP/HttpReverseProxyResource.cs:424-450 | Provided the local endpoint, the remote endpoint and the host hold no `;`, the `Forwarded` value reads as the pairs `by`, `for`, `proto` (`http` or `https`), then `host` only when a Host header is present. |
| ReverseProxy.ForwardingHeaders | Networking/Waher.Networking.HTTP/HttpReverseProxyResource.cs:422-468 | `X-Forwarded-For` and `X-Forwarded-Proto` always come first. `Forwarded` is always added with that value. `X-Forwarded-Host` and `Via` are added iff the request has a Host header. |
| ReverseProxy.SplitAuthorization | Networking/Waher.Networking.HTTP/HttpReverseProxyResource.cs:339-345 | With no space, the whole value is the scheme. Otherwise the scheme is the text before the first space, and the parameter is the rest with leading white space removed. |
| ReverseProxy.AuthorizationRoundTrip | Networking/Waher.Networking.HTTP/HttpReverseProxyResource.cs:339-345 | A space-free scheme and a parameter not starting with white space are recovered from `scheme parameter`. |
| ReverseProxy.ScanIsLastValue | Networking/Waher.Networking.HTTP/HttpReverseProxyResource.cs:354-375 | The attribute loop keeps, for `path` and for `domain` (keys lower-cased), the value of the last occurrence. |
| ReverseProxy.CookieOfMeaning | Networking/Waher.Networking.HTTP/HttpReverseProxyResource.cs:347-390 | No pairs gives no cookie. A first name that .NET refuses throws `CookieException`. Otherwise, the cookie's name and value are those of the first pair. Its path and domain are the last such values among the later pairs, or empty. |
| ReverseProxy.VersionCookieRefused | Networking/Waher.Networking.HTTP/HttpReverseProxyResource.cs:383-387 | `$Version=1; a=b` throws `CookieException`: the name `$Version` starts with `$`. |
| ReverseProxy.RouteTable | Networking/Waher.Networking.HTTP/HttpReverseProxyResource.cs:332-413 | Four header names are dropped and eight go to the content headers. Every other name not specially handled goes to the request headers. |
| ReverseProxy.RouteHeaders | Networking/Waher.Networking.HTTP/HttpReverseProxyResource.cs:330-414 | The call fails iff some field fails: an `Accept` value that is rejected throws `InvalidOperationException`, and a `Cookie` value whose first name is refused throws `CookieException`. The exception is that of the first failing field. On success: the Accept values are kept in order, the last `Authorization` split is kept, and the cookies are in field order. The content headers are kept only when there is content, and the request headers are all other unhandled fields, in order. |
| ReverseProxy.FirstFailureNone | Networking/Waher.Networking.HTTP/HttpReverseProxyResource.cs:330-390 | No field fails exactly when no field has a rejected `Accept` value or a refused cookie name. |
| ReverseProxy.ExpiresCopied | Networking/Waher.Networking.HTTP/HttpReverseProxyResource.cs:399-411 | An incoming `Expires` field is not a content name of the switch, so it is handed to the request headers by the default branch. |
| ReverseProxy.IncomingForwardingCopied | Networking/Waher.Networking.HTTP/HttpReverseProxyResource.cs:410-411 | An incoming `X-Forwarded-For`, `X-Forwarded-Proto`, `X-Forwarded-Host`, `Forwarded` or `Via` field is copied verbatim to the request headers, to which the proxy later adds its own field of the same name. |
| ReverseProxy.RequestHeadersExclude | Networking/Waher.Networking.HTTP/HttpReverseProxyResource.cs:392-411 | No dropped field (such as `Host`) and no content field is ever copied to the request headers. |
| CsvCodec.Decodes | Content/Waher.Content/Text/CsvCodec.cs:59-71 | True with grade Excellent iff the content type is exactly `text/csv`. Otherwise false with NotAtAll. |
| CsvCodec.TryGetContentType | Content/Waher.Content/Text/CsvCodec.cs:96-108 | Succeeds with `text/csv` iff the lower-cased extension is `csv`. Otherwise it fails with a null content type. |
| CsvCodec.TryGetFileExtension | Content/Waher.Content/Text/CsvCodec.cs:116-128 | Succeeds with `csv` iff the lower-cased content type is `text/csv`. Otherwise it fails with the empty string. |
| CsvCodec.ExtensionRoundTrip | Content/Waher.Content/Text/CsvCodec.cs:96-128 | The two mappings invert each other wherever they succeed. |
| CsvCodec.DecodeIsCaseSensitive | Content/Waher.Content/Text/CsvCodec.cs:59-128 | What is decoded also maps to an extension. `TEXT/CSV` maps to `csv` but is not decoded. |
| CsvCodec.Encodes | Content/Waher.Content/Text/CsvCodec.cs:137-150 | True with grade Ok iff the CSV type is accepted and the object is a record array or a matrix. Otherwise false with NotAtAll. |
| CsvCodec.Encode | Content/Waher.Content/Text/CsvCodec.cs:161-178 | Succeeds iff the object is a record array or a matrix, and throws `ArgumentException` otherwise. The content type is `text/csv`, and the default encoding is UTF-8. |
| CsvCodec.EncodesAgreesWithEncode | Content/Waher.Content/Text/CsvCodec.cs:137-178 | Whatever `Encodes` admits, `Encode` encodes as the UTF-8 bytes of the CSV text. Whatever `Encode` rejects, `Encodes` rejects. |
| CsvCodec.EncodesWithoutAcceptList | Content/Waher.Content/Text/CsvCodec.cs:139-140 | When an empty accept list accepts everything, `Encodes` depends on the object alone. |
| HumanReadable.ImageWellDefined | Networking/Waher.Networking.XMPP.Contracts/HumanReadable/InlineElements/Image.cs:73-108 | Well defined implies: non-empty data, a content type starting with `image/`, non-empty alternative text, width and height within 1..2048, a passing base check, and a decoding that neither throws nor yields null. |
| HumanReadable.ImageWellDefinedIff | Networking/Waher.Networking.XMPP.Contracts/HumanReadable/InlineElements/Image.cs:73-108 | The image is well defined exactly when all the field checks, the base check and the decoding succeed. |
| HumanReadable.SerializeReadBack | Networking/Waher.Networking.XMPP.Contracts/HumanReadable/InlineElements/Image.cs:114-132 | The encoded content type, width, height and Base64 data are read back from the XML, in that order. The binary is empty for null data. |
| HumanReadable.MarkdownReadBack | Networking/Waher.Networking.XMPP.Contracts/HumanReadable/InlineElements/Image.cs:141-157 | The image Markdown ends with `,DATA W H)`, whatever the caption: data, width and height are read back. |
| HumanReadable.CheckElements | Networking/Waher.Networking.XMPP.Contracts/HumanReadable/BlockElements/InlineBlock.cs:29-35 | True iff every element is non-null and well defined. The check stops at the first failing element, and every earlier element passed. |
| HumanReadable.BlockWellDefined | Networking/Waher.Networking.XMPP.Contracts/HumanReadable/BlockElements/InlineBlock.cs:24-36 | True iff the array is non-null and every element is non-null and well defined. |
| HumanReadable.BlockWellDefinedEdges | Networking/Waher.Networking.XMPP.Contracts/HumanReadable/BlockElements/InlineBlock.cs:26-35 | An empty block is well defined. A block with a null array is not. |
| HumanReadable.ElementsMarkdownIsFlatten | Networking/Waher.Networking.XMPP.Contracts/HumanReadable/BlockElements/InlineBlock.cs:45-52 | The Markdown fails iff some element is null. Otherwise it is the in-order concatenation of the elements' Markdown. |
| HumanReadable.WellDefinedBlockRenders | Networking/Waher.Networking.XMPP.Contracts/HumanReadable/BlockElements/InlineBlock.cs:24-52 | A well-defined block always renders, as the concatenation of its elements' Markdown. |
| SemanticModel.ParseRendering | Content/Waher.Content.Semantic/Model/Literals/UInt16Literal.cs:55 | The decimal rendering of v parses to v when v < 65536, and fails otherwise. |
| SemanticModel.ParseAcceptsWhiteAndSign | Content/Waher.Content.Semantic/Model/Literals/UInt16Literal.cs:55 | Surrounding white space and a leading `+` are accepted. |
| SemanticModel.ParseAcceptsLeadingZeros | Content/Waher.Content.Semantic/Model/Literals/UInt16Literal.cs:55 | `007` parses to 7. |
| SemanticModel.ParseAcceptsNegativeZero | Content/Waher.Content.Semantic/Model/Literals/UInt16Literal.cs:55 | `-0` parses to 0. |
| SemanticModel.ParseRejects | Content/Waher.Content.Semantic/Model/Literals/UInt16Literal.cs:55 | `-1`, the empty string and `65536` do not parse. |
| SemanticModel.FromValue | Content/Waher.Content.Semantic/Model/Literals/UInt16Literal.cs:21-24 | The value constructor's string is a rendering that parses back to the value. |
| SemanticModel.Parse | Content/Waher.Content.Semantic/Model/Literals/UInt16Literal.cs:53-59 | A `UInt16Literal` results iff the text parses, with the parsed value. Otherwise a custom literal with the given datatype and language results. Either keeps the input text verbatim. |
| SemanticModel.ParseRoundTrip | Content/Waher.Content.Semantic/Model/Literals/UInt16Literal.cs:21-59 | Parsing the decimal rendering of v gives the literal built from v, which is equal to it. |
| SemanticModel.LexicalEquality | Content/Waher.Content.Semantic/Model/Literals/UInt16Literal.cs:53-66 | `007` parses to value 7 with text `007`, and is not equal to the literal of 7. |
| SemanticModel.LiteralEqualsProperties | Content/Waher.Content.Semantic/Model/Literals/UInt16Literal.cs:62-72 | Equality is an equivalence and never holds against a non-`UInt16Literal`. Equal literals have equal hashes. |
| SemanticModel.LabelRoundTrip | Content/Waher.Content.Semantic/Model/BlankNode.cs:23-26 | The `_:` label reads back to the node, so distinct ids give distinct labels. |
| SemanticModel.NodeEqualsProperties | Content/Waher.Content.Semantic/Model/BlankNode.cs:29-39 | Equality is an equivalence, holds iff the labels are equal, and never holds against a non-blank node. Equal nodes have equal hashes. |
| ScriptUriParameter.SetParameter | Things/Waher.Things.Script/Parameters/ScriptUriParameterNode.cs:84-114 | Only this parameter's entry is written, and at most one error is appended. A missing or empty value stores null, with error 42 "Required parameter." iff required. A non-empty value is stored, with error 49 "Invalid value." iff it is not an absolute URI. |
| ScriptUriParameter.OnlySubmittedTextMatters | Things/Waher.Things.Script/Parameters/ScriptUriParameterNode.cs:87-108 | Two forms that submit the same text for the parameter have the same effect. |
| ScriptUriParameter.EmptyIsMissing | Things/Waher.Things.Script/Parameters/ScriptUriParameterNode.cs:87-105 | An empty value has exactly the effect of a missing field. |

## Left out

- The regex engine and `FilterFieldLikeRegEx.GetRegExConstantPrefix` are not part of this model. The matcher and the prefix are parameters.
- `RegexKeywords.EntriesBetween`: `GetEntriesAsync(from, to)` is modelled as returning the entries with keys in `[from, to)`, and so nothing when `to` sorts below `from`. The persistent dictionary is not part of this model, so its behaviour on such an inverted range is not confirmed.
- `Utf8.DecodeEncode` and `Utf8.EncodeInjective`: strings are sequences of Unicode scalar values. Unpaired UTF-16 surrogates, which `Encoding.UTF8.GetBytes` replaces by U+FFFD (bytes EF BF BD), are not modelled. Over .NET strings with lone surrogates, `H(string)` is not injective.
- The persistent index's asynchronous I/O is not modelled. The index is an ordinally sorted list of entries, and its sortedness is the one precondition of `GetTokenReferences`.
- `HashedAuthentication.HmacIsRfc2104`: proved only for hashes whose output fits in 64 bytes when the key is hashed. For longer hash outputs the source pads nothing and XORs only the first 64 bytes, which `NormalizeKey` and `XorPad` do model.
- `AuthenticationMechanism.CONCAT` is not part of this model. It is taken to be plain concatenation of strings and of byte arrays.
- `HashedAuthentication.HmacAsWritten`, `HashedAuthentication.HmacCorrected` and `HashedAuthentication.KeyMutationWitness` use arrays, with `modifies` and `old`, because the finding is about array aliasing.
- The reverse proxy's HTTP client is not modelled: body streaming, `Uri.TryCreate`, the cookie container, the response path and the `BeforeForwardRequest` event are left out (lines 282-329 and 470-546). So is the response-header filter, whose `"X-Content-Type-Options:"` case has a trailing colon and can never match (line 482).
- `ReverseProxy.Via`: the encoding of the floating HTTP version by `CommonTypes.Encode` is a parameter.
- `HttpRequestHeaders.Add` validation, `AuthenticationHeaderValue` validation and `MediaTypeHeaderValue` parsing are left out. The `Accept` parser is a parameter.
- The default ports 80 and 443 are the standard HTTP and HTTPS ports. `HttpServer` is not part of this model.
- `ReverseProxy.RouteHeaders`: "fails iff some field fails" holds only up to two checks that .NET makes and the model does not. First, `HttpRequestHeaders.Add` at line 411 throws `InvalidOperationException` for a content-header name. `Expires` is such a name but is missing from the content list of lines 399-406, so an incoming `Expires` field aborts the forwarding, while the model succeeds and copies it (`ReverseProxy.ExpiresCopied`). Second, `CookieContainer.Add` at line 389 throws `CookieException` for a value holding an unquoted `,`, as in `Cookie: a=b,c`, while the model succeeds.
- `ReverseProxy.RouteHeaders`: incoming forwarding fields are copied to the request headers (line 411), and the proxy then adds its own values (lines 431-468). How `HttpRequestHeaders` merges the two is not modelled. So an incoming `X-Forwarded-For: a` from remote `r` leaves as both `a` and `r, a`; the model shows the two halves (`ReverseProxy.IncomingForwardingCopied`, `ReverseProxy.ForwardingHeaders`) but not the merged list.
- `ReverseProxy.CookieOfMeaning`: the name rule follows the .NET `Cookie` constructor, which is not part of this model. The checks that `CookieContainer.Add` makes at line 389 (a value holding `;` or `,`, a domain or path that does not fit the request URI) are not modelled, so the model may accept a cookie that the container refuses.
- Culture-sensitive `ToLower` is modelled as ASCII lower-casing, and `StartsWith` as ordinal.
- `SemanticModel.Parse`: `ushort.TryParse` is modelled with `NumberStyles.Integer`: ASCII white space around, an optional sign, then decimal digits. The source uses the current culture's sign symbols; the model fixes them to `+` and `-`. Trailing NUL characters, which .NET also accepts, are not modelled.
- `UInt16Literal.ComparableValue` is a `double` and is left out. The default constructor is left out too.
- `String.GetHashCode` is a parameter, so only hash consistency with equality is stated.
- A `null` `NodeId`, file extension or content type, on which the source throws, is not modelled: these strings are never null here.
- `CsvCodec.Decode` (`CSV.Parse`) and `CSV.Encode` are not part of this model. The encoders are parameters.
- Image decoding (`InternetContent.DecodeAsync`), XML encoding, Base64, and the caption's own serialization and Markdown are parameters.
- `HumanReadable.Serialize`: a null content type is given to the XML encoder as the empty string.
- Localisation of the script parameter's error texts is left out. The error carries the string id and the default text.

## Findings

| source | as written | input that shows it | evidently intended | confidence | as-written member | corrected member |
|---|---|---|---|---|---|---|
| Networking/Waher.Networking.SASL/HashedAuthenticationMechanism.cs:43-56 | When the key is exactly 64 bytes, `A1` is the caller's array, neither hashed nor resized. The outer-pad XOR at line 55 therefore overwrites the caller's key. | Any 64-byte key, e.g. 64 zero bytes. After one call the caller's key holds 64 bytes 0x5c, and a second HMAC with the same array uses that changed key (and restores the zeros). | HMAC leaves the key unchanged, as it does for every other key length. | high (not executed) | HashedAuthentication.HmacAsWritten, HashedAuthentication.KeyMutationWitness | HashedAuthentication.HmacCorrected |

=== FILE: base.dfy ===
/** Small shared vocabulary: optional values (the source's `null`), results
    (the source's exceptions) and bytes. */
module Base {

  /** A value that may be absent; `None` stands for a .NET `null`. */
  datatype Option<+T> = None | Some(value: T) {
    function GetOr(default: T): T {
      match this
      case Some(v) => v
      case None => default
    }
  }

  /** The outcome of an operation that may throw; `Failure` carries the
      name of the exception type the source throws. */
  datatype Result<+T> = Success(value: T) | Failure(exception: string)

  /** A .NET `byte`. */
  newtype byte = x: int | 0 <= x < 0x100
}

=== FILE: csv_codec.dfy ===
/** The CSV content codec: which content types it decodes, the mapping between
    the `csv` file extension and the `text/csv` content type, and which objects
    it encodes. The CSV text format itself (`CSV.Parse`, `CSV.Encode`) is not
    part of this model; the encoders are parameters. */
module CsvCodec {
  import opened Base
  import opened Text
  import Utf8

  const CsvContentType: string := "text/csv"
  const CsvFileExtension: string := "csv"
  /** `CsvContentTypes`, the codec's `ContentTypes`. */
  const CsvContentTypes: seq<string> := [CsvContentType]
  /** `CsvFileExtensions`, the codec's `FileExtensions`. */
  const CsvFileExtensions: seq<string> := [CsvFileExtension]

  /** The grades the codec reports. */
  datatype Grade = NotAtAll | Ok | Excellent

  /** `Decodes`: exactly the content type `text/csv`, compared case-sensitively. */
  function Decodes(contentType: string): (r: (bool, Grade))
    ensures r.0 <==> contentType in CsvContentTypes
    ensures r.0 ==> r.1 == Excellent
    ensures !r.0 ==> r.1 == NotAtAll
  {
    if contentType == "text/csv" then (true, Excellent) else (false, NotAtAll)
  }

  /** `TryGetContentType`: the extension, lower-cased, must be `csv`; on failure
      the content type is `null`. */
  function TryGetContentType(fileExtension: string): (r: (bool, Option<string>))
    ensures r.0 <==> AsciiLower(fileExtension) in CsvFileExtensions
    ensures r.0 ==> r.1 == Some(CsvContentType)
    ensures !r.0 ==> r.1 == None
  {
    if AsciiLower(fileExtension) == "csv" then (true, Some("text/csv")) else (false, None)
  }

  /** `TryGetFileExtension`: the content type, lower-cased, must be `text/csv`;
      on failure the extension is the empty string. */
  function TryGetFileExtension(contentType: string): (r: (bool, string))
    ensures r.0 <==> AsciiLower(contentType) in CsvContentTypes
    ensures r.0 ==> r.1 == CsvFileExtension
    ensures !r.0 ==> r.1 == ""
  {
    if AsciiLower(contentType) == "text/csv" then (true, "csv") else (false, "")
  }

  /** The two mappings invert each other: an extension that maps to a content
      type maps back from it, and a content type that maps to an extension maps
      back from it. */
  lemma ExtensionRoundTrip(fileExtension: string, contentType: string)
    ensures TryGetContentType(fileExtension).0 ==>
      TryGetFileExtension(TryGetContentType(fileExtension).1.value) == (true, CsvFileExtension)
    ensures TryGetFileExtension(contentType).0 ==>
      TryGetContentType(TryGetFileExtension(contentType).1) == (true, Some(CsvContentType))
  {
    assert AsciiLower("text/csv") == "text/csv";
    assert AsciiLower("csv") == "csv";
  }

  /** Every content type the codec decodes also maps to the extension, but not
      conversely: the mapping ignores case, decoding does not. */
  lemma DecodeIsCaseSensitive(contentType: string)
    ensures Decodes(contentType).0 ==> TryGetFileExtension(contentType).0
    ensures TryGetFileExtension("TEXT/CSV") == (true, "csv") && !Decodes("TEXT/CSV").0
  {
    assert AsciiLower("text/csv") == "text/csv";
    assert AsciiLower("TEXT/CSV") == "text/csv";
  }

  // ---------------------------------------------------------------- encoding

  /** The objects `Encodes` and `Encode` distinguish: a `string[][]` of
      records, a script `IMatrix` (abstracted to its rows of cells), or
      anything else. */
  datatype Object = Records(records: seq<seq<string>>) | Matrix(rows: seq<seq<string>>) | OtherObject

  predicate IsCsvObject(obj: Object) {
    obj.Records? || obj.Matrix?
  }

  /** `Encodes`: the accepted types admit CSV (`InternetContent.IsAccepted`,
      a parameter here) and the object is records or a matrix. */
  function Encodes(obj: Object, accepted: seq<string>, isAccepted: (seq<string>, seq<string>) -> bool): (r: (bool, Grade))
    ensures r.0 <==> isAccepted(CsvContentTypes, accepted) && IsCsvObject(obj)
    ensures r.0 ==> r.1 == Ok
    ensures !r.0 ==> r.1 == NotAtAll
  {
    if isAccepted(CsvContentTypes, accepted) && (obj.Records? || obj.Matrix?) then (true, Ok)
    else (false, NotAtAll)
  }

  /** `Encode`: CSV text from the records or the matrix, as bytes of the given
      encoding or of UTF-8 when none is given, reported as `text/csv`;
      `ArgumentException` for any other object. The accepted types are not
      consulted. */
  function Encode(obj: Object, encoding: Option<string -> seq<byte>>,
                  encodeRecords: seq<seq<string>> -> string,
                  encodeMatrix: seq<seq<string>> -> string): (r: Result<(seq<byte>, string)>)
    ensures r.Success? <==> IsCsvObject(obj)
    ensures r.Failure? ==> r.exception == "ArgumentException"
    ensures r.Success? ==> r.value.1 == CsvContentType
    ensures r.Success? ==>
      var text := if obj.Records? then encodeRecords(obj.records) else encodeMatrix(obj.rows);
      r.value.0 == (if encoding.Some? then encoding.value(text) else Utf8.Encode(text))
  {
    var csv :=
      match obj
      case Records(records) => Some(encodeRecords(records))
      case Matrix(rows) => Some(encodeMatrix(rows))
      case OtherObject => None;
    match csv
    case None => Failure("ArgumentException")
    case Some(text) =>
      var bytes := match encoding
        case Some(enc) => enc(text)
        case None => Utf8.Encode(text);
      Success((bytes, "text/csv"))
  }

  /** Whatever `Encodes` admits, `Encode` encodes, as content type `text/csv`
      and as the UTF-8 bytes of the CSV text when no encoding is given; whatever
      `Encode` rejects, `Encodes` rejects whatever the accepted types are. */
  lemma EncodesAgreesWithEncode(obj: Object, accepted: seq<string>, isAccepted: (seq<string>, seq<string>) -> bool,
                                encodeRecords: seq<seq<string>> -> string, encodeMatrix: seq<seq<string>> -> string)
    ensures Encodes(obj, accepted, isAccepted).0 ==>
      var r := Encode(obj, None, encodeRecords, encodeMatrix);
      r.Success? && r.value.1 in CsvContentTypes &&
      r.value.0 == Utf8.Encode(if obj.Records? then encodeRecords(obj.records) else encodeMatrix(obj.rows))
    ensures Encode(obj, None, encodeRecords, encodeMatrix).Failure? ==> !Encodes(obj, accepted, isAccepted).0
  {
  }

  /** With no accepted types given, every content type is accepted (the
      documented contract of `IsAccepted`), so `Encodes` depends on the object
      alone. */
  lemma EncodesWithoutAcceptList(obj: Object, isAccepted: (seq<string>, seq<string>) -> bool)
    requires isAccepted(CsvContentTypes, [])
    ensures Encodes(obj, [], isAccepted).0 <==> IsCsvObject(obj)
  {
  }
}

=== FILE: decimal.dfy ===
/** Decimal rendering and parsing of integers: the invariant-culture
    `ToString()` of .NET integers and its inverse. */
module Decimal {
  import opened Base

  predicate IsDigit(c: char) {
    '0' <= c <= '9'
  }

  predicate AllDigits(s: string) {
    forall i :: 0 <= i < |s| ==> IsDigit(s[i])
  }

  function DigitValue(c: char): nat
    requires IsDigit(c)
  {
    c as int - '0' as int
  }

  function DigitChar(d: nat): (c: char)
    requires d < 10
    ensures IsDigit(c) && DigitValue(c) == d
  {
    (d + '0' as int) as char
  }

  /** Value of a string of decimal digits, leading zeros allowed; 0 when empty. */
  function DigitsValue(s: string): nat
    requires AllDigits(s)
    decreases |s|
  {
    if |s| == 0 then 0 else 10 * DigitsValue(s[..|s| - 1]) + DigitValue(s[|s| - 1])
  }

  /** Decimal rendering of a natural number: digits only, no leading zero. */
  function NatToString(n: nat): (r: string)
    ensures |r| >= 1 && AllDigits(r)
    ensures n > 0 ==> r[0] != '0'
    decreases n
  {
    if n < 10 then [DigitChar(n)] else NatToString(n / 10) + [DigitChar(n % 10)]
  }

  /** The rendering denotes the number it renders. */
  lemma {:induction false} NatToStringValue(n: nat)
    ensures DigitsValue(NatToString(n)) == n
    decreases n
  {
    if n >= 10 {
      var s := NatToString(n);
      assert s[..|s| - 1] == NatToString(n / 10);
      NatToStringValue(n / 10);
    }
  }

  /** Distinct numbers have distinct renderings. */
  lemma NatToStringInjective(a: nat, b: nat)
    requires NatToString(a) == NatToString(b)
    ensures a == b
  {
    NatToStringValue(a);
    NatToStringValue(b);
  }

  /** `Int32.ToString()`: a minus sign before the magnitude of a negative number. */
  function IntToString(i: int): (r: string)
    ensures i < 0 <==> (|r| > 0 && r[0] == '-')
    ensures AllDigits(if i < 0 then r[1..] else r)
  {
    if i < 0 then "-" + NatToString(-i) else NatToString(i)
  }

  /** A decimal rendering holds digits and possibly a leading minus sign only. */
  lemma DigitsFree(i: int, c: char)
    requires !IsDigit(c) && c != '-'
    ensures c !in IntToString(i)
  {
    var s := IntToString(i);
    if i < 0 {
      assert forall k :: 1 <= k < |s| ==> s[k] == s[1..][k - 1];
    }
  }

  /** Parses an optional minus sign followed by one or more decimal digits. */
  function ParseInt(s: string): (r: Option<int>)
    ensures r.Some? ==> |s| > 0 && (s[0] == '-' || IsDigit(s[0]))
  {
    if |s| > 1 && s[0] == '-' && AllDigits(s[1..]) then Some(0 - DigitsValue(s[1..]))
    else if |s| > 0 && AllDigits(s) then Some(DigitsValue(s))
    else None
  }

  /** `ParseInt` inverts `IntToString` on every integer. */
  lemma ParseIntToString(i: int)
    ensures ParseInt(IntToString(i)) == Some(i)
  {
    var s := IntToString(i);
    if i < 0 {
      assert s[1..] == NatToString(-i);
      assert |s| > 1 && s[0] == '-' && AllDigits(s[1..]);
      NatToStringValue(-i);
    } else {
      assert IsDigit(s[0]);
      NatToStringValue(i);
    }
  }
}

=== FILE: hashed_authentication.dfy ===
/** The hashed SASL authentication base: `H(string)`, HMAC as in section 2 of
    RFC 2104, and the digest helper `KD`. The concrete hash `H(byte[])` is
    abstract in the source and is a parameter here. */
module HashedAuthentication {
  import opened Base
  import Utf8

  /** The block size B of RFC 2104, in bytes. */
  const BlockSize: nat := 64
  /** The byte repeated in ipad. */
  const InnerPad: byte := 0x36
  /** The byte repeated in opad. */
  const OuterPad: byte := 0x5c

  /** The mechanism's hash function `H(byte[])`. */
  type Hash = seq<byte> -> seq<byte>

  // ---------------------------------------------------------------- XOR

  function Pow2(n: nat): (r: nat)
    ensures r >= 1
  {
    if n == 0 then 1 else 2 * Pow2(n - 1)
  }

  /** Bitwise exclusive or of the low `n` bits of `a` and `b`. */
  function XorBits(a: nat, b: nat, n: nat): (r: nat)
    requires a < Pow2(n) && b < Pow2(n)
    ensures r < Pow2(n)
  {
    if n == 0 then 0 else 2 * XorBits(a / 2, b / 2, n - 1) + (if a % 2 == b % 2 then 0 else 1)
  }

  lemma {:induction false} XorBitsInvolution(a: nat, p: nat, n: nat)
    requires a < Pow2(n) && p < Pow2(n)
    ensures XorBits(XorBits(a, p, n), p, n) == a
  {
    if n > 0 {
      XorBitsInvolution(a / 2, p / 2, n - 1);
    }
  }

  /** The C# `^` on two bytes. */
  function Xor(a: byte, b: byte): byte {
    assert Pow2(8) == 256;
    XorBits(a as nat, b as nat, 8) as byte
  }

  /** XOR with the same byte twice gives back the original byte. */
  lemma XorInvolution(a: byte, p: byte)
    ensures Xor(Xor(a, p), p) == a
  {
    assert Pow2(8) == 256;
    XorBitsInvolution(a as nat, p as nat, 8);
  }

  // ---------------------------------------------------------------- H(string), KD

  /** `H(string)`: the hash of the UTF-8 bytes of the string. */
  function HashString(h: Hash, s: string): seq<byte> {
    h(Utf8.Encode(s))
  }

  /** `KD(k, s) = H(CONCAT(k, ":", s))`. */
  function KD(h: Hash, k: string, s: string): seq<byte> {
    HashString(h, k + ":" + s)
  }

  /** The bytes `KD(k, s)` hashes. */
  function KDInput(k: string, s: string): seq<byte> {
    Utf8.Encode(k) + [0x3A] + Utf8.Encode(s)
  }

  /** KD hashes the bytes of `k`, one colon byte 0x3A, then the bytes of `s`. */
  lemma KDBytes(h: Hash, k: string, s: string)
    ensures KD(h, k, s) == h(KDInput(k, s))
  {
    Utf8.EncodeConcat(k + ":", s);
    Utf8.EncodeConcat(k, ":");
    assert Utf8.Encode(":") == [0x3A];
  }

  /** Distinct pairs with a colon-free `k` give distinct hash inputs: the UTF-8
      of such a `k` holds no 0x3A byte, so the first 0x3A ends it. */
  lemma KDInputInjective(k1: string, s1: string, k2: string, s2: string)
    requires ':' !in k1 && ':' !in k2
    requires KDInput(k1, s1) == KDInput(k2, s2)
    ensures k1 == k2 && s1 == s2
  {
    Utf8.AsciiByteAbsent(k1, ':');
    Utf8.AsciiByteAbsent(k2, ':');
    SplitUnique(Utf8.Encode(k1), Utf8.Encode(s1), Utf8.Encode(k2), Utf8.Encode(s2), 0x3A);
    Utf8.EncodeInjective(k1, k2);
    Utf8.EncodeInjective(s1, s2);
  }

  /** A separator absent from both left sides splits a sequence in one way only. */
  lemma SplitUnique(a1: seq<byte>, b1: seq<byte>, a2: seq<byte>, b2: seq<byte>, c: byte)
    requires c !in a1 && c !in a2
    requires a1 + [c] + b1 == a2 + [c] + b2
    ensures a1 == a2 && b1 == b2
  {
    var x := a1 + [c] + b1;
    assert x[|a1|] == c && x[|a2|] == c;
    assert forall i :: 0 <= i < |a1| ==> x[i] == a1[i] && x[i] != c;
    assert forall i :: 0 <= i < |a2| ==> x[i] == a2[i] && x[i] != c;
    assert a1 == x[..|a1|] && a2 == x[..|a2|];
    assert b1 == x[|a1| + 1..] && b2 == x[|a2| + 1..];
  }

  // ---------------------------------------------------------------- HMAC

  function Zeros(n: nat): (z: seq<byte>)
    ensures |z| == n && forall i :: 0 <= i < n ==> z[i] == 0
  {
    seq(n, _ => 0)
  }

  /** `A1` after lines 43-48 of the source: a key longer than the block is
      replaced by its hash, and a shorter result is zero-extended to the block. */
  function NormalizeKey(h: Hash, key: seq<byte>): (k: seq<byte>)
    ensures |key| <= BlockSize ==> |k| == BlockSize && k[..|key|] == key
    ensures |key| > BlockSize && |h(key)| <= BlockSize ==> |k| == BlockSize && k[..|h(key)|] == h(key)
    ensures |key| > BlockSize && |h(key)| > BlockSize ==> k == h(key)
    ensures forall i :: (if |key| > BlockSize then |h(key)| else |key|) <= i < |k| ==> k[i] == 0
  {
    var a1 := if |key| > BlockSize then h(key) else key;
    if |a1| < BlockSize then a1 + Zeros(BlockSize - |a1|) else a1
  }

  /** The first `BlockSize` bytes of `k` XORed with `pad`; any bytes after them
      (a hash longer than the block) are kept as they are. */
  function XorPad(k: seq<byte>, pad: byte): (r: seq<byte>)
    requires |k| >= BlockSize
    ensures |r| == |k|
  {
    seq(|k|, i requires 0 <= i < |k| => if i < BlockSize then Xor(k[i], pad) else k[i])
  }

  /** Padding twice with the same byte restores the key. */
  lemma XorPadInvolution(k: seq<byte>, pad: byte)
    requires |k| >= BlockSize
    ensures XorPad(XorPad(k, pad), pad) == k
  {
    forall i | 0 <= i < BlockSize {
      XorInvolution(k[i], pad);
    }
  }

  /** HMAC over an already normalized key `k0`: `H(opadKey + H(ipadKey + text))`. */
  function HmacWithKey(h: Hash, k0: seq<byte>, text: seq<byte>): seq<byte>
    requires |k0| >= BlockSize
  {
    h(XorPad(k0, OuterPad) + h(XorPad(k0, InnerPad) + text))
  }

  /** `HMAC(Key, Text)`, line 59 of the source. */
  function Hmac(h: Hash, key: seq<byte>, text: seq<byte>): seq<byte> {
    HmacWithKey(h, NormalizeKey(h, key), text)
  }

  // ---------------------------------------------------------------- RFC 2104 reference

  function Repeat(b: byte, n: nat): (r: seq<byte>)
    ensures |r| == n && forall i :: 0 <= i < n ==> r[i] == b
  {
    seq(n, _ => b)
  }

  /** Byte-wise XOR of two sequences of the same length. */
  function XorSeq(a: seq<byte>, b: seq<byte>): (r: seq<byte>)
    requires |a| == |b|
    ensures |r| == |a| && forall i :: 0 <= i < |a| ==> r[i] == Xor(a[i], b[i])
  {
    if |a| == 0 then [] else [Xor(a[0], b[0])] + XorSeq(a[1..], b[1..])
  }

  /** The key K0 of RFC 2104 steps (1)-(2): hash a key longer than B, then append zeros up to B. */
  function Rfc2104Key(h: Hash, key: seq<byte>): seq<byte>
    requires |key| > BlockSize ==> |h(key)| <= BlockSize
  {
    var k := if |key| > BlockSize then h(key) else key;
    k + Repeat(0, BlockSize - |k|)
  }

  /** H(K0 XOR opad, H(K0 XOR ipad, text)) as written in section 2 of RFC 2104. */
  function Rfc2104(h: Hash, key: seq<byte>, text: seq<byte>): seq<byte>
    requires |key| > BlockSize ==> |h(key)| <= BlockSize
  {
    var k0 := Rfc2104Key(h, key);
    h(XorSeq(k0, Repeat(OuterPad, BlockSize)) + h(XorSeq(k0, Repeat(InnerPad, BlockSize)) + text))
  }

  /** The source's HMAC is RFC 2104 HMAC whenever the hash of an over-long key
      fits in a block (true of every hash whose output is at most 64 bytes). */
  lemma HmacIsRfc2104(h: Hash, key: seq<byte>, text: seq<byte>)
    requires |key| > BlockSize ==> |h(key)| <= BlockSize
    ensures Hmac(h, key, text) == Rfc2104(h, key, text)
  {
    var k0 := NormalizeKey(h, key);
    assert k0 == Rfc2104Key(h, key);
    assert XorPad(k0, OuterPad) == XorSeq(k0, Repeat(OuterPad, BlockSize));
    assert XorPad(k0, InnerPad) == XorSeq(k0, Repeat(InnerPad, BlockSize));
  }

  // ---------------------------------------------------------------- the array code

  /** A fresh array holding `s` (what `H` and `Clone` return). */
  method NewArray(s: seq<byte>) returns (a: array<byte>)
    ensures fresh(a) && a[..] == s
  {
    a := new byte[|s|](i requires 0 <= i < |s| => s[i]);
  }

  /** `Array.Resize(ref A, n)` to a larger size: a fresh array, old bytes first, zeros after. */
  method Grow(a: array<byte>, n: nat) returns (b: array<byte>)
    requires a.Length <= n
    ensures fresh(b) && b[..] == a[..] + Zeros(n - a.Length)
  {
    var old_ := a[..];
    b := new byte[n](i requires 0 <= i < n => if i < |old_| then old_[i] else 0);
  }

  /** The loop of lines 53-57: the first block of `A1` XORed with opad and the
      first block of its copy `A3` with ipad, in place. */
  method PadBoth(a1: array<byte>, a3: array<byte>)
    requires a1 != a3 && a1.Length == a3.Length >= BlockSize && a1[..] == a3[..]
    modifies a1, a3
    ensures a1[..] == XorPad(old(a1[..]), OuterPad) && a3[..] == XorPad(old(a3[..]), InnerPad)
  {
    ghost var k0 := a1[..];
    var i := 0;
    while i < BlockSize
      invariant 0 <= i <= BlockSize
      invariant forall j :: 0 <= j < i ==> a1[j] == Xor(k0[j], OuterPad) && a3[j] == Xor(k0[j], InnerPad)
      invariant forall j :: i <= j < |k0| ==> a1[j] == k0[j] && a3[j] == k0[j]
    {
      a1[i] := Xor(a1[i], OuterPad);
      a3[i] := Xor(a3[i], InnerPad);
      i := i + 1;
    }
  }

  /** Lines 43-59 of the source, on arrays as written: `A1` is the caller's
      `Key` itself when the key is exactly one block long, so the opad loop
      XORs the caller's array in place. `Text` is read after that loop, so
      when it is the same array as `Key` the inner hash sees the padded bytes. */
  method HmacAsWritten(h: Hash, Key: array<byte>, Text: array<byte>) returns (r: seq<byte>)
    modifies Key
    ensures Key.Length == BlockSize ==> Key[..] == XorPad(old(Key[..]), OuterPad)
    ensures Key.Length != BlockSize ==> Key[..] == old(Key[..])
    ensures Text != Key ==> Text[..] == old(Text[..])
    ensures r == HmacWithKey(h, NormalizeKey(h, old(Key[..])), Text[..])
  {
    ghost var k0 := NormalizeKey(h, Key[..]);
    var a1 := Key;
    if a1.Length > BlockSize {
      a1 := NewArray(h(a1[..]));
    }
    if a1.Length < BlockSize {
      a1 := Grow(a1, BlockSize);
    }
    assert a1[..] == k0;
    var a3 := NewArray(a1[..]);
    PadBoth(a1, a3);
    var inner := h(a3[..] + Text[..]);
    r := h(a1[..] + inner);
  }

  /** Calling the as-written HMAC twice with the same one-block key array
      hashes two different keys: the second call sees the opad-XORed key, and
      leaves the array holding the original key again. The caller's key thus
      alternates between K and K xor opad, and every second call
      authenticates with the wrong key. */
  method KeyMutationWitness(h: Hash) returns (before: seq<byte>, after: seq<byte>, restored: seq<byte>,
                                             first: seq<byte>, second: seq<byte>)
    ensures |before| == BlockSize && before != after
    ensures after == XorPad(before, OuterPad)
    ensures restored == before
    ensures first == Hmac(h, before, []) && second == Hmac(h, after, [])
  {
    var key := new byte[BlockSize](_ => 0);
    var text := new byte[0];
    before := key[..];
    first := HmacAsWritten(h, key, text);
    after := key[..];
    assert after[0] == Xor(0, OuterPad);
    assert Pow2(8) == 256;
    assert Xor(0, OuterPad) == 0x5c;
    second := HmacAsWritten(h, key, text);
    restored := key[..];
    XorPadInvolution(before, OuterPad);
  }

  /** The corrected array code: `A1` is always a private copy, so neither
      argument is modified and the result is the HMAC of the caller's bytes. */
  method HmacCorrected(h: Hash, Key: array<byte>, Text: array<byte>) returns (r: seq<byte>)
    ensures r == Hmac(h, Key[..], Text[..])
  {
    ghost var k0 := NormalizeKey(h, Key[..]);
    var a1 := NewArray(Key[..]);
    if a1.Length > BlockSize {
      a1 := NewArray(h(a1[..]));
    }
    if a1.Length < BlockSize {
      a1 := Grow(a1, BlockSize);
    }
    assert a1[..] == k0;
    var a3 := NewArray(a1[..]);
    PadBoth(a1, a3);
    var inner := h(a3[..] + Text[..]);
    r := h(a1[..] + inner);
  }
}

=== FILE: human_readable.dfy ===
/** Two elements of the human-readable text of smart contracts: the inline
    image (validation, XML serialization, Markdown) and the block of inline
    elements (validation, Markdown). Image decoding, XML encoding and Base64
    are not part of this model and are parameters, as are the caption's own
    serialization and the children's own validation and Markdown. */
module HumanReadable {
  import opened Base
  import opened Text
  import opened Decimal

  /** Largest width or height of an image, in pixels. */
  const MaxSize: int := 2048

  // ---------------------------------------------------------------- Image

  /** An inline image; `None` stands for a `null` field. */
  datatype Image = Image(data: Option<seq<byte>>, contentType: Option<string>,
                         alternativeText: Option<string>, width: int, height: int)

  /** What `InternetContent.DecodeAsync` does with the image data. */
  datatype DecodeOutcome = Decoded(isNull: bool) | Threw

  /** The field checks of lines 75-88. */
  predicate FieldsWellDefined(img: Image) {
    && img.data.Some? && |img.data.value| > 0
    && img.contentType.Some? && IsPrefix("image/", img.contentType.value)
    && img.alternativeText.Some? && |img.alternativeText.value| > 0
    && 1 <= img.width <= MaxSize
    && 1 <= img.height <= MaxSize
  }

  /** `Image.IsWellDefined`: each check returns false on failure, in the
      source's order; `baseWellDefined` is the result of the base class check
      and `decode` the content decoder. */
  function ImageWellDefined(img: Image, baseWellDefined: bool,
                            decode: (string, seq<byte>) -> DecodeOutcome): (r: bool)
    ensures r ==> img.data.Some? && |img.data.value| > 0
    ensures r ==> img.contentType.Some? && |img.contentType.value| >= 6 && img.contentType.value[..6] == "image/"
    ensures r ==> img.alternativeText.Some? && img.alternativeText.value != ""
    ensures r ==> 1 <= img.width <= MaxSize && 1 <= img.height <= MaxSize
    ensures r ==> baseWellDefined && decode(img.contentType.value, img.data.value) == Decoded(false)
  {
    if img.data.None? || |img.data.value| == 0 then false
    else if img.contentType.None? || img.contentType.value == "" || !IsPrefix("image/", img.contentType.value) then false
    else if img.alternativeText.None? || img.alternativeText.value == "" then false
    else if img.width <= 0 || img.width > MaxSize then false
    else if img.height <= 0 || img.height > MaxSize then false
    else if !baseWellDefined then false
    else
      match decode(img.contentType.value, img.data.value)
      case Threw => false
      case Decoded(isNull) => !isNull
  }

  /** The image is well defined exactly when every field check, the base check
      and the decoding succeed. */
  lemma ImageWellDefinedIff(img: Image, baseWellDefined: bool, decode: (string, seq<byte>) -> DecodeOutcome)
    ensures ImageWellDefined(img, baseWellDefined, decode) <==>
      FieldsWellDefined(img) && baseWellDefined &&
      decode(img.contentType.value, img.data.value) == Decoded(false)
  {
  }

  /** `before'value'rest`: an attribute value between single quotes. */
  function Quoted(before: string, value: string, rest: string): string {
    before + ['\''] + value + ['\''] + rest
  }

  /** The text between the first two quotes, and what follows the second. */
  function ReadQuoted(s: string): (string, string) {
    SplitFirst(SplitFirst(s, '\'').1, '\'')
  }

  /** The quoted value is the text between the first two quotes. */
  lemma QuotedReadBack(before: string, value: string, rest: string)
    requires '\'' !in before && '\'' !in value
    ensures ReadQuoted(Quoted(before, value, rest)) == (value, rest)
  {
    assert Quoted(before, value, rest) == before + ['\''] + (value + ['\''] + rest);
    SplitFirstAt(before, '\'', value + ['\''] + rest);
    SplitFirstAt(value, '\'', rest);
  }

  /** The `binary` element and what follows it. */
  function BinaryAndCaption(bin: string, captionXml: string): string {
    "><binary>" + (bin + ['<'] + Closing(captionXml))
  }

  /** The end of the `binary` element after its `<`, then the caption. */
  function Closing(captionXml: string): string {
    "/binary><caption>" + captionXml + "</caption></imageInline>"
  }

  /** The binary text is what lies between `<binary>` and the next `<`. */
  lemma BinaryReadBack(bin: string, captionXml: string)
    requires '<' !in bin
    ensures IsPrefix("><binary>", BinaryAndCaption(bin, captionXml))
    ensures SplitFirst(BinaryAndCaption(bin, captionXml)[9..], '<').0 == bin
  {
    var a := "><binary>";
    var b := bin + ['<'] + Closing(captionXml);
    assert |a| == 9;
    assert (a + b)[..9] == a;
    assert (a + b)[9..] == b;
    SplitFirstAt(bin, '<', Closing(captionXml));
  }

  /** `Image.Serialize`: the `imageInline` element with the encoded content
      type, the dimensions, the Base64 data (empty for `null` data) and the
      caption's XML. */
  function Serialize(img: Image, xmlEncode: string -> string, base64: seq<byte> -> string, captionXml: string): string {
    Quoted("<imageInline contentType=", xmlEncode(img.contentType.GetOr("")),
      Quoted(" width=", IntToString(img.width),
        Quoted(" height=", IntToString(img.height),
          BinaryAndCaption(if img.data.Some? then base64(img.data.value) else "", captionXml))))
  }

  /** Reads back the content type, the dimensions and the Base64 text from a
      serialized image, splitting at the attribute quotes and at the first `<`
      after `<binary>`. */
  function ReadSerialized(xml: string): Option<(string, int, int, string)> {
    var (ct, r1) := ReadQuoted(xml);
    var (w, r3) := ReadQuoted(r1);
    var (h, r5) := ReadQuoted(r3);
    if !IsPrefix("><binary>", r5) then None
    else
      var (bin, _) := SplitFirst(r5[9..], '<');
      match (ParseInt(w), ParseInt(h))
      case (Some(wv), Some(hv)) => Some((ct, wv, hv, bin))
      case _ => None
  }

  /** Reading back text serialized from any content type, width, height and
      binary text that hold no quote (and, for the binary text, no `<`). */
  lemma ReadSerializedParts(ct: string, w: string, h: string, bin: string, captionXml: string)
    requires '\'' !in ct && '\'' !in w && '\'' !in h && '<' !in bin
    ensures ReadSerialized(Quoted("<imageInline contentType=", ct, Quoted(" width=", w,
      Quoted(" height=", h, BinaryAndCaption(bin, captionXml))))) ==
      match (ParseInt(w), ParseInt(h))
      case (Some(wv), Some(hv)) => Some((ct, wv, hv, bin))
      case _ => None
  {
    var r5 := BinaryAndCaption(bin, captionXml);
    var r3 := Quoted(" height=", h, r5);
    var r1 := Quoted(" width=", w, r3);
    assert '\'' !in "<imageInline contentType=";
    assert '\'' !in " width=";
    assert '\'' !in " height=";
    QuotedReadBack("<imageInline contentType=", ct, r1);
    QuotedReadBack(" width=", w, r3);
    QuotedReadBack(" height=", h, r5);
    BinaryReadBack(bin, captionXml);
  }

  /** The serialization can be read back: the content type as encoded, the
      width, the height and the Base64 data (empty when the data is `null`),
      provided the XML encoder never emits a quote and Base64 never emits `<`. */
  lemma SerializeReadBack(img: Image, xmlEncode: string -> string, base64: seq<byte> -> string, captionXml: string)
    requires '\'' !in xmlEncode(img.contentType.GetOr(""))
    requires img.data.Some? ==> '<' !in base64(img.data.value)
    ensures ReadSerialized(Serialize(img, xmlEncode, base64, captionXml)) ==
      Some((xmlEncode(img.contentType.GetOr("")), img.width, img.height,
            if img.data.Some? then base64(img.data.value) else ""))
  {
    DigitsFree(img.width, '\'');
    DigitsFree(img.height, '\'');
    ParseIntToString(img.width);
    ParseIntToString(img.height);
    ReadSerializedParts(xmlEncode(img.contentType.GetOr("")), IntToString(img.width), IntToString(img.height),
      if img.data.Some? then base64(img.data.value) else "", captionXml);
  }

  /** `Image.GenerateMarkdown`: `![caption](data:CT;base64,DATA W H)`; a `null`
      content type or data contributes nothing. */
  function Markdown(img: Image, base64: seq<byte> -> string, captionMarkdown: string): string {
    ("![" + captionMarkdown + "](data:" + img.contentType.GetOr("") + ";base64") + [','] +
    (if img.data.Some? then base64(img.data.value) else "") + [' '] +
    IntToString(img.width) + [' '] + IntToString(img.height) + [')']
  }

  /** Reads the Base64 text and the dimensions back from the end of image
      Markdown: the text after the last comma, then two space-separated numbers. */
  function ReadMarkdownTail(md: string): Option<(string, int, int)> {
    if |md| == 0 || md[|md| - 1] != ')' then None
    else
      var (r1, h) := SplitLast(md[..|md| - 1], ' ');
      var (r2, w) := SplitLast(r1, ' ');
      var (_, bin) := SplitLast(r2, ',');
      match (ParseInt(w), ParseInt(h))
      case (Some(wv), Some(hv)) => Some((bin, wv, hv))
      case _ => None
  }

  /** The Markdown ends with the data and the dimensions, whatever the caption
      holds, when Base64 never emits a space or a comma. */
  lemma MarkdownReadBack(img: Image, base64: seq<byte> -> string, captionMarkdown: string)
    requires img.data.Some? ==> ' ' !in base64(img.data.value) && ',' !in base64(img.data.value)
    ensures ReadMarkdownTail(Markdown(img, base64, captionMarkdown)) ==
      Some((if img.data.Some? then base64(img.data.value) else "", img.width, img.height))
  {
    var bin := if img.data.Some? then base64(img.data.value) else "";
    var head := "![" + captionMarkdown + "](data:" + img.contentType.GetOr("") + ";base64";
    assert Markdown(img, base64, captionMarkdown) ==
      head + [','] + bin + [' '] + IntToString(img.width) + [' '] + IntToString(img.height) + [')'];
    TailReadBack(head, bin, img.width, img.height);
  }

  /** Whatever precedes the last comma, the tail `,DATA W H)` reads back. */
  lemma TailReadBack(head: string, bin: string, width: int, height: int)
    requires ' ' !in bin && ',' !in bin
    ensures ReadMarkdownTail(head + [','] + bin + [' '] + IntToString(width) + [' '] + IntToString(height) + [')']) ==
      Some((bin, width, height))
  {
    var w := IntToString(width);
    var h := IntToString(height);
    var body := head + [','] + bin + [' '] + w + [' '] + h;
    var md := body + [')'];
    assert md[..|md| - 1] == body;
    DigitsFree(width, ' ');
    DigitsFree(height, ' ');
    SplitLastAt(head + [','] + bin + [' '] + w, ' ', h);
    SplitLastAt(head + [','] + bin, ' ', w);
    SplitLastAt(head, ',', bin);
    ParseIntToString(width);
    ParseIntToString(height);
  }

  // ---------------------------------------------------------------- InlineBlock

  /** A block of inline elements; the array and each element may be `null`. */
  datatype InlineBlock<E> = InlineBlock(elements: Option<seq<Option<E>>>)

  /** The loop of lines 29-33: returns whether every element is non-null and
      well defined, and how many elements it examined before returning. */
  function CheckElements<E>(es: seq<Option<E>>, wellDefined: E -> bool): (r: (bool, nat))
    ensures r.1 <= |es|
    ensures r.0 <==> forall i :: 0 <= i < |es| ==> es[i].Some? && wellDefined(es[i].value)
    ensures r.0 ==> r.1 == |es|
    ensures !r.0 ==> 1 <= r.1 && !(es[r.1 - 1].Some? && wellDefined(es[r.1 - 1].value))
    ensures forall i :: 0 <= i < r.1 - 1 ==> es[i].Some? && wellDefined(es[i].value)
  {
    if |es| == 0 then (true, 0)
    else if es[0].None? || !wellDefined(es[0].value) then (false, 1)
    else
      var rest := CheckElements(es[1..], wellDefined);
      assert forall i :: 1 <= i < |es| ==> es[i] == es[1..][i - 1];
      (rest.0, rest.1 + 1)
  }

  /** `InlineBlock.IsWellDefined`. */
  function BlockWellDefined<E>(b: InlineBlock<E>, wellDefined: E -> bool): (r: bool)
    ensures r <==> (b.elements.Some? &&
      forall i :: 0 <= i < |b.elements.value| ==> b.elements.value[i].Some? && wellDefined(b.elements.value[i].value))
  {
    b.elements.Some? && CheckElements(b.elements.value, wellDefined).0
  }

  /** An empty block is well defined; a block whose array is `null` is not. */
  lemma BlockWellDefinedEdges<E>(wellDefined: E -> bool)
    ensures BlockWellDefined(InlineBlock(Some([])), wellDefined)
    ensures !BlockWellDefined(InlineBlock(None), wellDefined)
  {
  }

  /** The elements' Markdown written in order; a `null` element makes the call
      fail with a null reference, as `E.GenerateMarkdown` would. */
  function ElementsMarkdown<E>(es: seq<Option<E>>, markdown: E -> string): Result<string> {
    if |es| == 0 then Success("")
    else if es[0].None? then Failure("NullReferenceException")
    else
      match ElementsMarkdown(es[1..], markdown)
      case Failure(e) => Failure(e)
      case Success(rest) => Success(markdown(es[0].value) + rest)
  }

  /** `InlineBlock.GenerateMarkdown`: nothing when the array is `null`. */
  function BlockMarkdown<E>(b: InlineBlock<E>, markdown: E -> string): Result<string> {
    if b.elements.None? then Success("") else ElementsMarkdown(b.elements.value, markdown)
  }

  /** Reference for the rendering of a block without `null` elements: the
      elements' Markdown appended one after the other, built from the end. */
  function Flatten<E>(es: seq<Option<E>>, markdown: E -> string): string
    requires forall i :: 0 <= i < |es| ==> es[i].Some?
  {
    if |es| == 0 then "" else Flatten(es[..|es| - 1], markdown) + markdown(es[|es| - 1].value)
  }

  lemma {:induction false} FlattenCons<E>(es: seq<Option<E>>, markdown: E -> string)
    requires |es| > 0 && forall i :: 0 <= i < |es| ==> es[i].Some?
    ensures Flatten(es, markdown) == markdown(es[0].value) + Flatten(es[1..], markdown)
    decreases |es|
  {
    if |es| > 1 {
      var init := es[..|es| - 1];
      assert init[1..] == es[1..][..|es| - 2];
      FlattenCons(init, markdown);
    } else {
      assert es[..0] == [] && es[1..] == [];
    }
  }

  /** A `null` element is the only way to fail; without one, the Markdown is
      the in-order concatenation of the elements' Markdown. */
  lemma {:induction false} ElementsMarkdownIsFlatten<E>(es: seq<Option<E>>, markdown: E -> string)
    ensures ElementsMarkdown(es, markdown).Success? <==> forall i :: 0 <= i < |es| ==> es[i].Some?
    ensures (forall i :: 0 <= i < |es| ==> es[i].Some?) ==>
      ElementsMarkdown(es, markdown) == Success(Flatten(es, markdown))
    decreases |es|
  {
    if |es| > 0 {
      ElementsMarkdownIsFlatten(es[1..], markdown);
      assert forall i :: 1 <= i < |es| ==> es[i] == es[1..][i - 1];
      if forall i :: 0 <= i < |es| ==> es[i].Some? {
        FlattenCons(es, markdown);
      }
    }
  }

  /** A well-defined block always renders, as the concatenation of its
      elements' Markdown. */
  lemma WellDefinedBlockRenders<E>(b: InlineBlock<E>, wellDefined: E -> bool, markdown: E -> string)
    requires BlockWellDefined(b, wellDefined)
    ensures BlockMarkdown(b, markdown) == Success(Flatten(b.elements.value, markdown))
  {
    ElementsMarkdownIsFlatten(b.elements.value, markdown);
  }
}

=== FILE: regex_keyword.dfy ===
/** A regular-expression keyword of the full-text search engine and the way it
    resolves to token references: a scan of the token index bounded by the
    pattern's constant prefix, or a scan of the whole index when there is no
    prefix, keeping only keys the pattern matches from start to end.

    Strings here are sequences of UTF-16 code units, as in .NET, so that the
    ordinal order of the index and the `char` increment of the bound are exact.
    The regex engine and the constant-prefix analysis are not part of this
    model: they are a `Matcher` and a `preamble` given by the caller. */
module RegexKeywords {
  import opened Base

  newtype CodeUnit = x: int | 0 <= x < 0x1_0000
  type Text = seq<CodeUnit>

  const MaxCodeUnit: CodeUnit := 0xFFFF

  // ---------------------------------------------------------------- the keyword

  datatype RegexKeyword = RegexKeyword(expression: Text)

  /** What `Equals(object)` may be handed: this keyword type or another object. */
  datatype Object = Regex(keyword: RegexKeyword) | OtherObject

  /** `OrderComplexity`: the length of the expression. */
  function OrderComplexity(k: RegexKeyword): int {
    |k.expression|
  }

  /** `Equals`: another regex keyword with the same expression, compared ordinally. */
  predicate Equals(k: RegexKeyword, obj: Object) {
    obj.Regex? && obj.keyword.expression == k.expression
  }

  /** `ToString`: the expression itself. */
  function ToString(k: RegexKeyword): Text {
    k.expression
  }

  /** Equality is decided by the rendered expressions alone, is an equivalence,
      never holds against another kind of object, and equal keywords have equal
      complexity. */
  lemma EqualsProperties(a: RegexKeyword, b: RegexKeyword, c: RegexKeyword)
    ensures Equals(a, Regex(b)) <==> ToString(a) == ToString(b)
    ensures Equals(a, Regex(a))
    ensures Equals(a, Regex(b)) ==> Equals(b, Regex(a))
    ensures Equals(a, Regex(b)) && Equals(b, Regex(c)) ==> Equals(a, Regex(c))
    ensures !Equals(a, OtherObject)
    ensures Equals(a, Regex(b)) ==> OrderComplexity(a) == OrderComplexity(b)
    ensures RegexKeyword(ToString(a)) == a
  {
  }

  /** Equality is case-sensitive although the pattern is compiled with
      `IgnoreCase`: `Kil.*` and `kil.*` are different keywords. */
  lemma EqualsIsCaseSensitive()
    ensures !Equals(RegexKeyword([0x4B, 0x69, 0x6C, 0x2E, 0x2A]),
                    Regex(RegexKeyword([0x6B, 0x69, 0x6C, 0x2E, 0x2A])))
  {
  }

  // ---------------------------------------------------------------- ordinal order

  /** `a` sorts strictly before `b` by ordinal comparison of code units. */
  predicate Below(a: Text, b: Text)
    decreases |a|
  {
    if |a| == 0 then |b| > 0
    else if |b| == 0 then false
    else if a[0] != b[0] then a[0] < b[0]
    else Below(a[1..], b[1..])
  }

  lemma {:induction false} BelowIrreflexive(a: Text)
    ensures !Below(a, a)
    decreases |a|
  {
    if |a| > 0 {
      BelowIrreflexive(a[1..]);
    }
  }

  predicate StartsWith(s: Text, p: Text) {
    |p| <= |s| && s[..|p|] == p
  }

  // ---------------------------------------------------------------- the index

  /** Token references of one token; their contents do not affect the scan. */
  datatype TokenReferences = TokenReferences(objectReferences: seq<nat>, counts: seq<nat>)

  /** What the persistent dictionary holds under a key. */
  datatype Stored = References(refs: TokenReferences) | OtherValue

  datatype Entry = Entry(key: Text, value: Stored)

  /** The token index in key order. */
  type Index = seq<Entry>

  /** The index's keys are strictly increasing, hence unique. */
  predicate Sorted(idx: Index) {
    forall i, j :: 0 <= i < j < |idx| ==> Below(idx[i].key, idx[j].key)
  }

  /** `TryGetValueAsync`. */
  function Lookup(idx: Index, key: Text): Option<Stored> {
    if |idx| == 0 then None
    else if idx[0].key == key then Some(idx[0].value)
    else Lookup(idx[1..], key)
  }

  lemma {:induction false} LookupFindsEntry(idx: Index, i: nat)
    requires Sorted(idx) && i < |idx|
    ensures Lookup(idx, idx[i].key) == Some(idx[i].value)
  {
    if i == 0 {
    } else {
      if idx[0].key == idx[i].key {
        BelowIrreflexive(idx[0].key);
        assert false;
      }
      assert forall a, b :: 0 <= a < b < |idx[1..]| ==> idx[1..][a] == idx[a + 1] && idx[1..][b] == idx[b + 1];
      LookupFindsEntry(idx[1..], i - 1);
    }
  }

  /** `key` lies in the half-open range `[from, to)`. */
  predicate InRange(key: Text, from: Text, to: Text) {
    !Below(key, from) && Below(key, to)
  }

  /** `GetEntriesAsync(from, to)`: the entries with keys in `[from, to)`, in index order. */
  function EntriesBetween(idx: Index, from: Text, to: Text): (r: Index)
    ensures |r| <= |idx|
  {
    if |idx| == 0 then []
    else
      var last := idx[|idx| - 1];
      EntriesBetween(idx[..|idx| - 1], from, to) + (if InRange(last.key, from, to) then [last] else [])
  }

  /** The entries whose key starts with `p`, in index order. */
  function WithPrefix(idx: Index, p: Text): Index {
    if |idx| == 0 then []
    else
      var last := idx[|idx| - 1];
      WithPrefix(idx[..|idx| - 1], p) + (if StartsWith(last.key, p) then [last] else [])
  }

  // ---------------------------------------------------------------- matching

  /** The result of `Regex.Match` on a key. */
  datatype Match = Match(success: bool, index: nat, length: nat)

  /** The compiled pattern, `Parsed.Match`. */
  type Matcher = Text -> Match

  /** The match succeeded, starts at 0 and covers the whole key. */
  predicate FullMatch(m: Matcher, key: Text) {
    m(key).success && m(key).index == 0 && m(key).length == |key|
  }

  predicate Selected(m: Matcher, e: Entry) {
    FullMatch(m, e.key) && e.value.References?
  }

  /** The (key, references) pairs of the selected entries, in order. */
  function Matching(es: seq<Entry>, m: Matcher): seq<(Text, TokenReferences)> {
    if |es| == 0 then []
    else
      var last := es[|es| - 1];
      Matching(es[..|es| - 1], m) + (if Selected(m, last) then [(last.key, last.value.refs)] else [])
  }

  /** Every pair returned comes from an entry that fully matches and holds
      token references; every such entry is returned. */
  lemma {:induction false} MatchingExactly(es: seq<Entry>, m: Matcher)
    ensures forall k :: 0 <= k < |Matching(es, m)| ==>
      FullMatch(m, Matching(es, m)[k].0) && Entry(Matching(es, m)[k].0, References(Matching(es, m)[k].1)) in es
    ensures forall e :: e in es && Selected(m, e) ==> (e.key, e.value.refs) in Matching(es, m)
    decreases |es|
  {
    if |es| > 0 {
      var init := es[..|es| - 1];
      MatchingExactly(init, m);
      assert es == init + [es[|es| - 1]];
    }
  }

  /** The returned keys are strictly increasing when the index is sorted. */
  lemma {:induction false} MatchingInKeyOrder(es: seq<Entry>, m: Matcher)
    requires Sorted(es)
    ensures forall i, j :: 0 <= i < j < |Matching(es, m)| ==> Below(Matching(es, m)[i].0, Matching(es, m)[j].0)
    decreases |es|
  {
    if |es| > 0 {
      var init := es[..|es| - 1];
      var last := es[|es| - 1];
      assert Sorted(init);
      MatchingInKeyOrder(init, m);
      MatchingExactly(init, m);
      var r := Matching(init, m);
      forall k | 0 <= k < |r|
        ensures Below(r[k].0, last.key)
      {
        var e := Entry(r[k].0, References(r[k].1));
        var j :| 0 <= j < |init| && init[j] == e;
        assert es[j] == e;
      }
    }
  }

  // ---------------------------------------------------------------- the bound

  /** The exclusive upper bound of line 79-81: the prefix with its last code
      unit incremented, wrapping from U+FFFF to U+0000 as C# `char++` does. */
  function UpperBound(prefix: Text): (r: Text)
    requires |prefix| > 0
    ensures |r| == |prefix| && r[..|r| - 1] == prefix[..|prefix| - 1]
    ensures prefix[|prefix| - 1] < MaxCodeUnit ==> r[|r| - 1] as int == prefix[|prefix| - 1] as int + 1
    ensures prefix[|prefix| - 1] == MaxCodeUnit ==> r[|r| - 1] == 0
  {
    var last := prefix[|prefix| - 1];
    prefix[..|prefix| - 1] + [if last == MaxCodeUnit then 0 else last + 1]
  }

  lemma UpperBoundTail(p: Text)
    requires |p| > 1
    ensures UpperBound(p)[0] == p[0] && UpperBound(p)[1..] == UpperBound(p[1..])
  {
  }

  /** Past an equal first unit, prefix testing continues on the tails. */
  lemma StartsWithTail(s: Text, p: Text)
    requires |s| > 0 && |p| > 0 && s[0] == p[0]
    ensures StartsWith(s, p) <==> StartsWith(s[1..], p[1..])
  {
    if |p| <= |s| {
      assert s[..|p|] == [s[0]] + s[1..][..|p| - 1];
      assert p == [p[0]] + p[1..];
    }
  }

  /** With a last code unit below U+FFFF the range `[p, UpperBound(p))` holds
      exactly the strings that start with `p`. */
  lemma {:induction false} RangeIsPrefix(p: Text, s: Text)
    requires |p| > 0 && p[|p| - 1] < MaxCodeUnit
    ensures InRange(s, p, UpperBound(p)) <==> StartsWith(s, p)
    decreases |p|
  {
    var ub := UpperBound(p);
    if |s| == 0 {
    } else if |p| == 1 {
      if s[0] == p[0] {
        assert !Below(s[1..], []);
      } else if s[0] as int == p[0] as int + 1 {
        assert ub == [s[0]] && ub[1..] == [];
        assert !Below(s[1..], ub[1..]);
        assert !Below(s, ub);
        assert !StartsWith(s, p);
      }
    } else {
      UpperBoundTail(p);
      if s[0] == p[0] {
        RangeIsPrefix(p[1..], s[1..]);
        StartsWithTail(s, p);
      }
    }
  }

  /** The prefix sorts before its bound. */
  lemma PrefixBelowBound(p: Text)
    requires |p| > 0 && p[|p| - 1] < MaxCodeUnit
    ensures Below(p, UpperBound(p))
  {
    RangeIsPrefix(p, p);
  }

  /** With a last code unit of U+FFFF the bound wraps below the prefix and
      the range is empty. */
  lemma {:induction false} WrappedRangeEmpty(p: Text, s: Text)
    requires |p| > 0 && p[|p| - 1] == MaxCodeUnit
    ensures !InRange(s, p, UpperBound(p))
    decreases |p|
  {
    if |s| == 0 {
    } else if |p| == 1 {
      if s[0] == 0 {
        assert !Below(s[1..], []);
      }
    } else {
      UpperBoundTail(p);
      if s[0] == p[0] {
        WrappedRangeEmpty(p[1..], s[1..]);
      }
    }
  }

  lemma {:induction false} EntriesBetweenIsWithPrefix(idx: Index, p: Text)
    requires |p| > 0 && p[|p| - 1] < MaxCodeUnit
    ensures EntriesBetween(idx, p, UpperBound(p)) == WithPrefix(idx, p)
    decreases |idx|
  {
    if |idx| > 0 {
      EntriesBetweenIsWithPrefix(idx[..|idx| - 1], p);
      RangeIsPrefix(p, idx[|idx| - 1].key);
    }
  }

  lemma {:induction false} EntriesBetweenWrappedEmpty(idx: Index, p: Text)
    requires |p| > 0 && p[|p| - 1] == MaxCodeUnit
    ensures EntriesBetween(idx, p, UpperBound(p)) == []
    decreases |idx|
  {
    if |idx| > 0 {
      EntriesBetweenWrappedEmpty(idx[..|idx| - 1], p);
      WrappedRangeEmpty(p, idx[|idx| - 1].key);
    }
  }

  /** Restricting to keys with the prefix loses no match when every fully
      matching key starts with the prefix. */
  lemma {:induction false} PrefixLosesNothing(idx: Index, p: Text, m: Matcher)
    requires forall e :: e in idx && FullMatch(m, e.key) ==> StartsWith(e.key, p)
    ensures Matching(WithPrefix(idx, p), m) == Matching(idx, m)
    decreases |idx|
  {
    if |idx| > 0 {
      var init := idx[..|idx| - 1];
      var last := idx[|idx| - 1];
      assert forall e :: e in init ==> e in idx;
      PrefixLosesNothing(init, p, m);
      MatchingAppend(WithPrefix(init, p), last, m);
      if StartsWith(last.key, p) {
        assert WithPrefix(idx, p) == WithPrefix(init, p) + [last];
      } else {
        assert !Selected(m, last);
        assert WithPrefix(idx, p) == WithPrefix(init, p);
      }
    }
  }

  lemma MatchingAppend(es: seq<Entry>, e: Entry, m: Matcher)
    ensures Matching(es + [e], m) == Matching(es, m) + (if Selected(m, e) then [(e.key, e.value.refs)] else [])
  {
    assert (es + [e])[..|es|] == es;
  }

  /** The key property of the prefix-bounded scan: when every fully matching key
      of the index starts with the constant prefix (and the prefix does not end
      in U+FFFF), scanning `[prefix, bound)` returns exactly what the full scan
      returns. */
  lemma BoundedScanIsFullScan(idx: Index, p: Text, m: Matcher)
    requires |p| > 0 && p[|p| - 1] < MaxCodeUnit
    requires forall e :: e in idx && FullMatch(m, e.key) ==> StartsWith(e.key, p)
    ensures Matching(EntriesBetween(idx, p, UpperBound(p)), m) == Matching(idx, m)
  {
    EntriesBetweenIsWithPrefix(idx, p);
    PrefixLosesNothing(idx, p, m);
  }

  /** The assumption is needed: with `IgnoreCase` the pattern `Kil.*` fully
      matches the token `kil`, but a prefix "Kil" bounds the scan to
      `["Kil", "Kim")`, which does not contain "kil". */
  lemma BoundedScanNeedsPrefixAssumption()
    ensures
      var kil: Text := [0x6B, 0x69, 0x6C];
      var prefix: Text := [0x4B, 0x69, 0x6C];
      var idx := [Entry(kil, References(TokenReferences([1], [1])))];
      var m: Matcher := (key: Text) => if key == kil then Match(true, 0, 3) else Match(false, 0, 0);
      Matching(EntriesBetween(idx, prefix, UpperBound(prefix)), m) == [] &&
      Matching(idx, m) == [(kil, TokenReferences([1], [1]))]
  {
    var kil: Text := [0x6B, 0x69, 0x6C];
    var prefix: Text := [0x4B, 0x69, 0x6C];
    var idx := [Entry(kil, References(TokenReferences([1], [1])))];
    assert kil[..3][0] != prefix[0];
    assert !StartsWith(kil, prefix);
    EntriesBetweenIsWithPrefix(idx, prefix);
    assert idx[..0] == [];
  }

  // ---------------------------------------------------------------- GetTokenReferences

  /** `GetTokenReferences`, lines 55-94: the full-scan branch walks the keys and
      looks each fully matching key up again; the bounded branch walks the
      entries of `[preamble, bound)`. `preamble` is the constant prefix the
      pattern's analysis derived. */
  method GetTokenReferences(idx: Index, m: Matcher, preamble: Text) returns (result: seq<(Text, TokenReferences)>)
    requires Sorted(idx)
    ensures |preamble| == 0 ==> result == Matching(idx, m)
    ensures |preamble| > 0 ==> result == Matching(EntriesBetween(idx, preamble, UpperBound(preamble)), m)
    ensures |preamble| > 0 && preamble[|preamble| - 1] < MaxCodeUnit ==>
      result == Matching(WithPrefix(idx, preamble), m)
    ensures |preamble| > 0 && preamble[|preamble| - 1] == MaxCodeUnit ==> result == []
    ensures (&& |preamble| > 0 && preamble[|preamble| - 1] < MaxCodeUnit
             && forall e :: e in idx && FullMatch(m, e.key) ==> StartsWith(e.key, preamble))
            ==> result == Matching(idx, m)
  {
    result := [];
    if |preamble| == 0 {
      var keys := seq(|idx|, i requires 0 <= i < |idx| => idx[i].key);
      var i := 0;
      while i < |keys|
        invariant 0 <= i <= |keys|
        invariant result == Matching(idx[..i], m)
      {
        var key := keys[i];
        assert idx[..i + 1] == idx[..i] + [idx[i]];
        MatchingAppend(idx[..i], idx[i], m);
        if m(key).success && m(key).index == 0 && m(key).length == |key| {
          var p := Lookup(idx, key);
          LookupFindsEntry(idx, i);
          if p.Some? && p.value.References? {
            result := result + [(key, p.value.refs)];
          }
        }
        i := i + 1;
      }
      assert idx[..|idx|] == idx;
    } else {
      var toExclusive := UpperBound(preamble);
      var records := EntriesBetween(idx, preamble, toExclusive);
      var i := 0;
      while i < |records|
        invariant 0 <= i <= |records|
        invariant result == Matching(records[..i], m)
      {
        var rec := records[i];
        assert records[..i + 1] == records[..i] + [rec];
        MatchingAppend(records[..i], rec, m);
        if m(rec.key).success && m(rec.key).index == 0 && m(rec.key).length == |rec.key| && rec.value.References? {
          result := result + [(rec.key, rec.value.refs)];
        }
        i := i + 1;
      }
      assert records[..|records|] == records;
      if preamble[|preamble| - 1] < MaxCodeUnit {
        EntriesBetweenIsWithPrefix(idx, preamble);
        if forall e :: e in idx && FullMatch(m, e.key) ==> StartsWith(e.key, preamble) {
          BoundedScanIsFullScan(idx, preamble, m);
        }
      } else {
        EntriesBetweenWrappedEmpty(idx, preamble);
      }
    }
  }
}

=== FILE: reverse_proxy.dfy ===
/** The string and header logic of the HTTP reverse proxy resource: the base
    URI built by the constructor, the target URI of a proxied request, the
    forwarding headers (`X-Forwarded-For`, `X-Forwarded-Proto`,
    `X-Forwarded-Host`, `Forwarded`, `Via`), the split of `Authorization`,
    the interpretation of `Cookie`, and the routing of incoming header fields
    to the outgoing request. The HTTP client, streams and the response path
    are not part of this model. */
module ReverseProxy {
  import opened Base
  import opened Text
  import opened Decimal

  /** `HttpServer.DefaultHttpPort` and `HttpServer.DefaultHttpsPort`. */
  const DefaultHttpPort: int := 80
  const DefaultHttpsPort: int := 443

  // ---------------------------------------------------------------- Base URI

  function DefaultPort(encryption: bool): int {
    if encryption then DefaultHttpsPort else DefaultHttpPort
  }

  /** `http://` or, with encryption, `https://`. */
  function SchemePrefix(encryption: bool): string {
    if encryption then "https://" else "http://"
  }

  /** The host, followed by `:port` unless the port is the scheme's default. */
  function Authority(host: string, port: int, encryption: bool): string {
    host + (if port != DefaultPort(encryption) then [':'] + IntToString(port) else "")
  }

  /** The base URI of the remote server (constructor, lines 61-85); a `null`
      host or folder is the empty string. */
  function BaseUri(host: string, port: int, folder: string, encryption: bool): (r: string)
    ensures IsPrefix("https://", r) <==> encryption
    ensures IsPrefix("http://", r) <==> !encryption
  {
    var p := SchemePrefix(encryption);
    var r := p + (Authority(host, port, encryption) + folder);
    assert r[..|p|] == p;
    assert r[4] == p[4];
    assert "https://"[4] != "http://"[4];
    r
  }

  /** What a base URI says about the remote server. */
  datatype Endpoint = Endpoint(encryption: bool, host: string, port: int, folder: string)

  /** Reads a base URI: the scheme, the host up to a `:` or `/`, the port after
      `:` (the scheme's default when absent) and the folder from the first `/`. */
  function ParseBaseUri(uri: string): Option<Endpoint> {
    if IsPrefix("https://", uri) then ParseAuthority(true, uri[8..])
    else if IsPrefix("http://", uri) then ParseAuthority(false, uri[7..])
    else None
  }

  function ParseAuthority(encryption: bool, s: string): Option<Endpoint> {
    var i := IndexOf(s, '/');
    var authority := if i < 0 then s else s[..i];
    var folder := if i < 0 then "" else s[i..];
    var (host, port) := SplitFirst(authority, ':');
    if ':' !in authority then Some(Endpoint(encryption, host, DefaultPort(encryption), folder))
    else
      match ParseInt(port)
      case Some(p) => Some(Endpoint(encryption, host, p, folder))
      case None => None
  }

  /** The authority starts with the host, whatever it holds (an IPv6 literal
      such as `[::1]` included). After the host, a `:` appears exactly when
      the port is not the scheme's default, and what follows it reads back
      as the port. */
  lemma PortShownIff(host: string, port: int, encryption: bool)
    ensures IsPrefix(host, Authority(host, port, encryption))
    ensures ':' in Authority(host, port, encryption)[|host|..] <==> port != DefaultPort(encryption)
    ensures port != DefaultPort(encryption) ==>
      Authority(host, port, encryption)[|host|] == ':' &&
      ParseInt(Authority(host, port, encryption)[|host| + 1..]) == Some(port)
  {
    var a := Authority(host, port, encryption);
    assert a[..|host|] == host;
    if port != DefaultPort(encryption) {
      assert a[|host|..][0] == ':';
      assert a[|host| + 1..] == IntToString(port);
      ParseIntToString(port);
    } else {
      assert a[|host|..] == "";
    }
  }

  /** For a host without `:`, the whole authority holds `:` exactly when the
      port is shown. */
  lemma PortColonIff(host: string, port: int, encryption: bool)
    requires ':' !in host
    ensures ':' in Authority(host, port, encryption) <==> port != DefaultPort(encryption)
  {
    var a := Authority(host, port, encryption);
    PortShownIff(host, port, encryption);
    assert a == a[..|host|] + a[|host|..];
  }

  /** The first `/` after a slash-free authority starts the folder. */
  lemma FolderSplit(a: string, folder: string)
    requires '/' !in a
    requires folder == "" || folder[0] == '/'
    ensures var i := IndexOf(a + folder, '/');
      (if i < 0 then a + folder else (a + folder)[..i]) == a &&
      (if i < 0 then "" else (a + folder)[i..]) == folder
  {
    var s := a + folder;
    if folder == "" {
      assert s == a;
    } else {
      assert s == a + ['/'] + folder[1..];
      IndexOfPrefixFree(a, '/', folder[1..]);
      assert s[..|a|] == a && s[|a|..] == folder;
    }
  }

  /** The host and port are read back from the authority. */
  lemma AuthorityRead(host: string, port: int, encryption: bool)
    requires ':' !in host
    ensures var a := Authority(host, port, encryption);
      SplitFirst(a, ':').0 == host &&
      (':' !in a ==> port == DefaultPort(encryption)) &&
      (':' in a ==> ParseInt(SplitFirst(a, ':').1) == Some(port))
  {
    var a := Authority(host, port, encryption);
    PortColonIff(host, port, encryption);
    if port != DefaultPort(encryption) {
      assert a == host + [':'] + IntToString(port);
      SplitFirstAt(host, ':', IntToString(port));
      ParseIntToString(port);
    } else {
      assert a == host;
    }
  }

  lemma ParseAuthorityOf(host: string, port: int, folder: string, encryption: bool)
    requires ':' !in host && '/' !in host
    requires folder == "" || folder[0] == '/'
    ensures ParseAuthority(encryption, Authority(host, port, encryption) + folder) ==
      Some(Endpoint(encryption, host, port, folder))
  {
    var a := Authority(host, port, encryption);
    DigitsFree(port, '/');
    assert a == host || a == host + [':'] + IntToString(port);
    assert '/' !in a;
    FolderSplit(a, folder);
    AuthorityRead(host, port, encryption);
  }

  /** The base URI can be read back when the host holds neither `:` nor `/`
      and the folder is empty or starts with `/`. */
  lemma BaseUriRoundTrip(host: string, port: int, folder: string, encryption: bool)
    requires ':' !in host && '/' !in host
    requires folder == "" || folder[0] == '/'
    ensures ParseBaseUri(BaseUri(host, port, folder, encryption)) == Some(Endpoint(encryption, host, port, folder))
  {
    var p := SchemePrefix(encryption);
    var rest := Authority(host, port, encryption) + folder;
    var u := BaseUri(host, port, folder, encryption);
    assert u == p + rest;
    assert u[|p|..] == rest;
    ParseAuthorityOf(host, port, folder, encryption);
  }

  // ---------------------------------------------------------------- Target URI

  /** The URI of the proxied request (lines 271-280): base URI, sub-path, and
      `?query` when the query string is non-empty (`null` is empty). */
  function TargetUri(baseUri: string, subPath: string, query: string): string {
    baseUri + subPath + (if query != "" then ['?'] + query else "")
  }

  /** Splitting the target at its first `?` gives back the path and the query
      (empty when there was none), when base URI and sub-path hold no `?`. */
  lemma TargetUriReadBack(baseUri: string, subPath: string, query: string)
    requires '?' !in baseUri + subPath
    ensures SplitFirst(TargetUri(baseUri, subPath, query), '?') == (baseUri + subPath, query)
  {
    if query != "" {
      assert TargetUri(baseUri, subPath, query) == baseUri + subPath + ['?'] + query;
      SplitFirstAt(baseUri + subPath, '?', query);
    } else {
      assert TargetUri(baseUri, subPath, query) == baseUri + subPath;
    }
  }

  // ---------------------------------------------------------------- Forwarding headers

  /** A value put in front of an incoming list value: `first`, or
      `first, incoming` when the request already had one. */
  function Chain(first: string, incoming: Option<string>): string {
    match incoming
    case None => first
    case Some(v) => first + [','] + [' '] + v
  }

  /** Each part with its leading white space trimmed. */
  function TrimAll(parts: seq<string>): (r: seq<string>)
    ensures |r| == |parts|
  {
    if |parts| == 0 then [] else [TrimStart(parts[0])] + TrimAll(parts[1..])
  }

  /** The entries of a comma-separated list, leading white space trimmed. */
  function Hops(value: string): seq<string> {
    TrimAll(Split(value, ','))
  }

  lemma SpaceTrimmed(p: string)
    ensures TrimStart([' '] + p) == TrimStart(p)
  {
    assert ([' '] + p)[1..] == p;
  }

  lemma TrimAllCons(p: string, rest: seq<string>)
    ensures TrimAll([p] + rest) == [TrimStart(p)] + TrimAll(rest)
  {
    assert ([p] + rest)[1..] == rest;
  }

  /** Chaining adds exactly one entry, in front of the incoming ones. */
  lemma ChainHops(first: string, incoming: Option<string>)
    requires ',' !in first
    ensures incoming.None? ==> Hops(Chain(first, incoming)) == [TrimStart(first)]
    ensures incoming.Some? ==> Hops(Chain(first, incoming)) == [TrimStart(first)] + Hops(incoming.value)
  {
    if incoming.None? {
      assert Split(first, ',') == [first];
    } else {
      assert Chain(first, incoming) == first + [','] + ([' '] + incoming.value);
      SpacedHops(first, incoming.value);
    }
  }

  lemma SpacedHops(first: string, v: string)
    requires ',' !in first
    ensures Hops(first + [','] + ([' '] + v)) == [TrimStart(first)] + Hops(v)
  {
    var pv := Split(v, ',');
    var spaced := [[' '] + pv[0]] + pv[1..];
    SplitAt(first, ',', [' '] + v);
    SplitCons(' ', v, ',');
    TrimAllCons(first, spaced);
    TrimAllCons([' '] + pv[0], pv[1..]);
    TrimAllCons(pv[0], pv[1..]);
    SpaceTrimmed(pv[0]);
    assert pv == [pv[0]] + pv[1..];
  }

  /** `X-Forwarded-For` (lines 430-433): the client's address in front of the
      incoming chain. */
  function XForwardedFor(remote: string, incoming: Option<string>): string {
    Chain(remote, incoming)
  }

  /** `X-Forwarded-Proto` (lines 435-442). */
  function Proto(encrypted: bool): string {
    if encrypted then "https" else "http"
  }

  /** `name=value`. */
  function Pair(name: string, value: string): string {
    name + ['='] + value
  }

  /** The `;`-separated elements of the `Forwarded` value: `by=L`, `for=R`,
      `proto=P`, then `host=H` when the request names its host. */
  function ForwardedElements(local: string, remote: string, encrypted: bool, host: Option<string>): (r: seq<string>)
    ensures |r| == if host.Some? then 4 else 3
  {
    [Pair("by", local), Pair("for", remote), Pair("proto", Proto(encrypted))] +
    (if host.Some? then [Pair("host", host.value)] else [])
  }

  /** `Forwarded` (lines 424-450, 468): the elements appended with `;`
      between consecutive ones. */
  function Forwarded(local: string, remote: string, encrypted: bool, host: Option<string>): string {
    Join(ForwardedElements(local, remote, encrypted, host), ';')
  }

  /** Each part split at its first `=`. */
  function SplitAllAtEquals(parts: seq<string>): (r: seq<(string, string)>)
    ensures |r| == |parts|
    ensures forall i :: 0 <= i < |parts| ==> r[i] == SplitFirst(parts[i], '=')
  {
    if |parts| == 0 then [] else [SplitFirst(parts[0], '=')] + SplitAllAtEquals(parts[1..])
  }

  /** The `name=value` pairs of a `Forwarded` value. */
  function ForwardedPairs(value: string): seq<(string, string)> {
    SplitAllAtEquals(Split(value, ';'))
  }

  /** A pair with a plain name and a value without `;` reads back as itself. */
  lemma PairRead(name: string, value: string)
    requires '=' !in name && ';' !in name && ';' !in value
    ensures ';' !in Pair(name, value)
    ensures SplitFirst(Pair(name, value), '=') == (name, value)
  {
    SplitFirstAt(name, '=', value);
  }

  /** Reading the pairs of joined elements splits each element at `=`. */
  lemma PairsOfJoin(parts: seq<string>)
    requires |parts| >= 1 && forall i :: 0 <= i < |parts| ==> ';' !in parts[i]
    ensures ForwardedPairs(Join(parts, ';')) == SplitAllAtEquals(parts)
  {
    SplitJoin(parts, ';');
  }

  /** An element `name=value` of a joined list reads back as its pair. */
  lemma ElementRead(parts: seq<string>, i: nat, name: string, value: string)
    requires i < |parts| && forall j :: 0 <= j < |parts| ==> ';' !in parts[j]
    requires parts[i] == Pair(name, value)
    requires '=' !in name && ';' !in name && ';' !in value
    ensures |ForwardedPairs(Join(parts, ';'))| == |parts|
    ensures ForwardedPairs(Join(parts, ';'))[i] == (name, value)
  {
    PairsOfJoin(parts);
    PairRead(name, value);
  }

  /** The elements of the `Forwarded` value, none holding `;` when no endpoint does. */
  lemma ElementsFree(local: string, remote: string, encrypted: bool, host: Option<string>)
    requires ';' !in local && ';' !in remote && (host.Some? ==> ';' !in host.value)
    ensures var parts := ForwardedElements(local, remote, encrypted, host);
      forall i :: 0 <= i < |parts| ==> ';' !in parts[i]
    ensures var parts := ForwardedElements(local, remote, encrypted, host);
      parts[0] == Pair("by", local) && parts[1] == Pair("for", remote) && parts[2] == Pair("proto", Proto(encrypted)) &&
      (host.Some? ==> parts[3] == Pair("host", host.value))
  {
    var parts := ForwardedElements(local, remote, encrypted, host);
    var leading := [Pair("by", local), Pair("for", remote), Pair("proto", Proto(encrypted))];
    PairFree("by", local);
    PairFree("for", remote);
    PairFree("proto", Proto(encrypted));
    assert forall i :: 0 <= i < 3 ==> ';' !in leading[i];
    if host.Some? {
      PairFree("host", host.value);
      assert parts == leading + [Pair("host", host.value)];
    } else {
      assert parts == leading;
    }
  }

  lemma PairFree(name: string, value: string)
    requires ';' !in name && ';' !in value
    ensures ';' !in Pair(name, value)
  {
  }

  /** The pairs of the `Forwarded` value, one by one. */
  lemma LeadingPairs(local: string, remote: string, encrypted: bool, host: Option<string>)
    requires ';' !in local && ';' !in remote && (host.Some? ==> ';' !in host.value)
    ensures var pairs := ForwardedPairs(Forwarded(local, remote, encrypted, host));
      |pairs| == (if host.Some? then 4 else 3) &&
      pairs[0] == ("by", local) && pairs[1] == ("for", remote) && pairs[2] == ("proto", Proto(encrypted)) &&
      (host.Some? ==> pairs[3] == ("host", host.value))
  {
    var parts := ForwardedElements(local, remote, encrypted, host);
    ElementsFree(local, remote, encrypted, host);
    NamesPlain();
    ElementRead(parts, 0, "by", local);
    ElementRead(parts, 1, "for", remote);
    ElementRead(parts, 2, "proto", Proto(encrypted));
    if host.Some? {
      ElementRead(parts, 3, "host", host.value);
    }
  }

  /** The four pair names hold neither `=` nor `;`. */
  lemma NamesPlain()
    ensures '=' !in "by" && ';' !in "by" && '=' !in "for" && ';' !in "for"
    ensures '=' !in "proto" && ';' !in "proto" && '=' !in "host" && ';' !in "host"
  {
  }

  lemma AssemblePairs(pairs: seq<(string, string)>, local: string, remote: string, proto: string, host: Option<string>)
    requires |pairs| == (if host.Some? then 4 else 3)
    requires pairs[0] == ("by", local) && pairs[1] == ("for", remote) && pairs[2] == ("proto", proto)
    requires host.Some? ==> pairs[3] == ("host", host.value)
    ensures pairs == [("by", local), ("for", remote), ("proto", proto)] + (if host.Some? then [("host", host.value)] else [])
  {
  }

  /** The pairs of the `Forwarded` value, in order, when no endpoint holds `;`. */
  lemma ForwardedReadBack(local: string, remote: string, encrypted: bool, host: Option<string>)
    requires ';' !in local && ';' !in remote && (host.Some? ==> ';' !in host.value)
    ensures ForwardedPairs(Forwarded(local, remote, encrypted, host)) ==
      [("by", local), ("for", remote), ("proto", Proto(encrypted))] +
      (if host.Some? then [("host", host.value)] else [])
  {
    LeadingPairs(local, remote, encrypted, host);
    AssemblePairs(ForwardedPairs(Forwarded(local, remote, encrypted, host)), local, remote, Proto(encrypted), host);
  }

  /** `Via` (lines 454-465): the protocol version (its encoding of the
      floating version number is a parameter), the host, then the incoming
      `Via` chain. */
  function Via(version: string, host: string, incoming: Option<string>): string {
    Chain("HTTP/" + version + [' '] + host, incoming)
  }

  /** The headers the proxy adds to every forwarded request, in order. */
  function ForwardingHeaders(local: string, remote: string, encrypted: bool, host: Option<string>,
                             forwardedFor: Option<string>, via: Option<string>, version: string): (r: seq<(string, string)>)
    ensures |r| == if host.Some? then 5 else 3
    ensures r[0] == ("X-Forwarded-For", XForwardedFor(remote, forwardedFor))
    ensures r[1] == ("X-Forwarded-Proto", Proto(encrypted))
    ensures "Via" in Names(r) <==> host.Some?
    ensures "X-Forwarded-Host" in Names(r) <==> host.Some?
    ensures "Forwarded" in Names(r)
    ensures forall i :: 0 <= i < |r| && r[i].0 == "Forwarded" ==> r[i].1 == Forwarded(local, remote, encrypted, host)
  {
    var fwd := Forwarded(local, remote, encrypted, host);
    var r := [("X-Forwarded-For", XForwardedFor(remote, forwardedFor)), ("X-Forwarded-Proto", Proto(encrypted))] +
      match host
      case Some(h) => [("X-Forwarded-Host", h), ("Forwarded", fwd), ("Via", Via(version, h, via))]
      case None => [("Forwarded", fwd)];
    assert Names(r) == if host.Some? then ["X-Forwarded-For", "X-Forwarded-Proto", "X-Forwarded-Host", "Forwarded", "Via"]
      else ["X-Forwarded-For", "X-Forwarded-Proto", "Forwarded"];
    r
  }

  /** The names of a list of header fields. */
  function Names(fields: seq<(string, string)>): (r: seq<string>)
    ensures |r| == |fields| && forall i :: 0 <= i < |fields| ==> r[i] == fields[i].0
  {
    seq(|fields|, i requires 0 <= i < |fields| => fields[i].0)
  }

  // ---------------------------------------------------------------- Authorization

  /** The scheme and, when the value has a space, the parameter of an
      `Authorization` value (lines 339-345). */
  function SplitAuthorization(value: string): (r: (string, Option<string>))
    ensures r.1.None? <==> ' ' !in value
    ensures r.1.None? ==> r.0 == value
    ensures ' ' !in r.0
    ensures r.1.Some? ==>
      && |r.0| + 1 + |r.1.value| <= |value|
      && value[..|r.0|] == r.0 && value[|r.0|] == ' '
      && value[|value| - |r.1.value|..] == r.1.value
      && (forall k :: |r.0| < k < |value| - |r.1.value| ==> IsWhiteSpace(value[k]))
      && (r.1.value == "" || !IsWhiteSpace(r.1.value[0]))
  {
    var i := IndexOf(value, ' ');
    if i < 0 then (value, None)
    else
      var rest := value[i + 1..];
      var p := TrimStart(rest);
      assert forall k :: i < k < |value| - |p| ==> value[k] == rest[k - i - 1];
      (value[..i], Some(p))
  }

  /** A scheme without spaces and a parameter that does not start with white
      space are recovered from `scheme parameter`. */
  lemma AuthorizationRoundTrip(scheme: string, parameter: string)
    requires ' ' !in scheme
    requires parameter == "" || !IsWhiteSpace(parameter[0])
    ensures SplitAuthorization(scheme + [' '] + parameter) == (scheme, Some(parameter))
  {
    var v := scheme + [' '] + parameter;
    IndexOfPrefixFree(scheme, ' ', parameter);
    assert v[..|scheme|] == scheme;
    assert v[|scheme| + 1..] == parameter;
  }

  // ---------------------------------------------------------------- Cookie

  /** The three `System.Net.Cookie` constructors used for a `Cookie` field. */
  datatype Cookie =
    | NameValue(name: string, value: string)
    | WithPath(name: string, value: string, path: string)
    | WithDomain(name: string, value: string, path: string, domain: string)

  /** The path of a cookie; the two-argument constructor leaves it empty. */
  function CookiePath(c: Cookie): string {
    match c
    case NameValue(_, _) => ""
    case WithPath(_, _, p) => p
    case WithDomain(_, _, p, _) => p
  }

  /** The domain of a cookie; only the four-argument constructor sets it. */
  function CookieDomain(c: Cookie): string {
    match c
    case WithDomain(_, _, _, d) => d
    case _ => ""
  }

  /** The loop over the pairs after the first (lines 354-375): a key equal to
      `path` or `domain`, ignoring case, overwrites the value seen so far. */
  function ScanAttributes(pairs: seq<(string, string)>, path: Option<string>, domain: Option<string>): (Option<string>, Option<string>)
    decreases |pairs|
  {
    if |pairs| == 0 then (path, domain)
    else
      var key := AsciiLower(pairs[0].0);
      ScanAttributes(pairs[1..],
        if key == "path" then Some(pairs[0].1) else path,
        if key == "domain" then Some(pairs[0].1) else domain)
  }

  /** Reference: the value of the last pair whose lower-cased key is `name`,
      or `otherwise` when there is none. */
  function LastValue(pairs: seq<(string, string)>, name: string, otherwise: Option<string>): Option<string> {
    if |pairs| == 0 then otherwise
    else if AsciiLower(pairs[|pairs| - 1].0) == name then Some(pairs[|pairs| - 1].1)
    else LastValue(pairs[..|pairs| - 1], name, otherwise)
  }

  /** A pair in front only changes the fallback of `LastValue`. */
  lemma {:induction false} LastValueCons(p: (string, string), pairs: seq<(string, string)>, name: string, otherwise: Option<string>)
    ensures LastValue([p] + pairs, name, otherwise) ==
      LastValue(pairs, name, if AsciiLower(p.0) == name then Some(p.1) else otherwise)
    decreases |pairs|
  {
    if |pairs| == 0 {
      assert ([p] + pairs)[..0] == [];
    } else {
      var init := pairs[..|pairs| - 1];
      assert ([p] + pairs)[..|pairs|] == [p] + init;
      LastValueCons(p, init, name, otherwise);
    }
  }

  /** The scan keeps, for each attribute, the value of its last occurrence. */
  lemma {:induction false} ScanIsLastValue(pairs: seq<(string, string)>, path: Option<string>, domain: Option<string>)
    ensures ScanAttributes(pairs, path, domain) == (LastValue(pairs, "path", path), LastValue(pairs, "domain", domain))
    decreases |pairs|
  {
    if |pairs| > 0 {
      var key := AsciiLower(pairs[0].0);
      var path' := if key == "path" then Some(pairs[0].1) else path;
      var domain' := if key == "domain" then Some(pairs[0].1) else domain;
      ScanIsLastValue(pairs[1..], path', domain');
      assert pairs == [pairs[0]] + pairs[1..];
      LastValueCons(pairs[0], pairs[1..], "path", path);
      LastValueCons(pairs[0], pairs[1..], "domain", domain);
    }
  }

  /** The characters a cookie name may not contain. */
  const ReservedToName: set<char> := {'\t', '\r', '\n', '=', ';', ','}

  /** The name rule of every `System.Net.Cookie` constructor: not empty, not
      starting with `$` or a space, not ending with a space, and free of tab,
      CR, LF, `=`, `;` and `,`. Any other name makes it throw `CookieException`. */
  predicate ValidCookieName(name: string) {
    && name != ""
    && name[0] != '$' && name[0] != ' ' && name[|name| - 1] != ' '
    && forall i :: 0 <= i < |name| ==> name[i] !in ReservedToName
  }

  /** The cookie made from the pairs `CommonTypes.ParseFieldValues` finds in a
      `Cookie` field (lines 347-390): the first pair is the name and value;
      no pairs, no cookie; a name the constructor refuses throws. */
  function CookieOf(pairs: seq<(string, string)>): Result<Option<Cookie>> {
    if |pairs| == 0 then Success(None)
    else
      var (path, domain) := ScanAttributes(pairs[1..], None, None);
      var (name, value) := pairs[0];
      if !ValidCookieName(name) then Failure("CookieException")
      else if domain.Some? && domain.value != "" then Success(Some(WithDomain(name, value, path.GetOr(""), domain.value)))
      else if path.Some? && path.value != "" then Success(Some(WithPath(name, value, path.value)))
      else Success(Some(NameValue(name, value)))
  }

  /** No pairs give no cookie, a refused name throws `CookieException`, and
      whichever constructor is chosen otherwise, the cookie carries the first
      pair as name and value and the last `path` and `domain` values of the
      later pairs (empty when absent). */
  lemma CookieOfMeaning(pairs: seq<(string, string)>)
    ensures CookieOf(pairs) == Success(None) <==> |pairs| == 0
    ensures CookieOf(pairs).Failure? <==> |pairs| > 0 && !ValidCookieName(pairs[0].0)
    ensures CookieOf(pairs).Failure? ==> CookieOf(pairs).exception == "CookieException"
    ensures |pairs| > 0 && ValidCookieName(pairs[0].0) ==>
      && CookieOf(pairs).Success? && CookieOf(pairs).value.Some?
      && CookieOf(pairs).value.value.name == pairs[0].0
      && CookieOf(pairs).value.value.value == pairs[0].1
      && CookiePath(CookieOf(pairs).value.value) == LastValue(pairs[1..], "path", None).GetOr("")
      && CookieDomain(CookieOf(pairs).value.value) == LastValue(pairs[1..], "domain", None).GetOr("")
  {
    if |pairs| > 0 {
      ScanIsLastValue(pairs[1..], None, None);
    }
  }

  /** The `Cookie` field of RFC 2965 form `$Version=1; a=b` is refused: its
      first pair is named `$Version`. */
  lemma VersionCookieRefused(pairs: seq<(string, string)>)
    requires pairs == [("$Version", "1"), ("a", "b")]
    ensures CookieOf(pairs) == Failure("CookieException")
  {
    assert pairs[0].0[0] == '$';
  }

  // ---------------------------------------------------------------- Request header routing

  /** Where an incoming header field goes (the switch of lines 332-413). */
  datatype Route = AcceptRoute | AuthorizationRoute | CookieRoute | Ignored | ContentRoute | RequestRoute

  /** Header fields that are dropped because the client re-codes them. */
  const IgnoredHeaders: set<string> := {"Content-Encoding", "Content-Length", "Transfer-Encoding", "Host"}

  /** Entity header fields that belong to the request content. */
  const ContentHeaders: set<string> := {"Allow", "Content-Disposition", "Content-Language", "Content-Location",
                                        "Content-MD5", "Content-Range", "Content-Type", "Last-Modified"}

  /** The route of a header name; names compare ordinally. */
  function RouteOf(key: string): Route {
    match key
    case "Accept" => AcceptRoute
    case "Authorization" => AuthorizationRoute
    case "Cookie" => CookieRoute
    case "Content-Encoding" => Ignored
    case "Content-Length" => Ignored
    case "Transfer-Encoding" => Ignored
    case "Host" => Ignored
    case "Allow" => ContentRoute
    case "Content-Disposition" => ContentRoute
    case "Content-Language" => ContentRoute
    case "Content-Location" => ContentRoute
    case "Content-MD5" => ContentRoute
    case "Content-Range" => ContentRoute
    case "Content-Type" => ContentRoute
    case "Last-Modified" => ContentRoute
    case _ => RequestRoute
  }

  /** The routing agrees with the two named sets, and every other name that
      is not specially handled goes to the request headers. */
  lemma RouteTable(key: string)
    ensures RouteOf(key) == Ignored <==> key in IgnoredHeaders
    ensures RouteOf(key) == ContentRoute <==> key in ContentHeaders
    ensures RouteOf(key) == RequestRoute <==>
      key !in IgnoredHeaders && key !in ContentHeaders && key != "Accept" && key != "Authorization" && key != "Cookie"
  {
  }

  /** The fields with the given route, in their original order. */
  function Routed(fields: seq<(string, string)>, route: Route): (r: seq<(string, string)>)
    ensures |r| <= |fields|
    ensures forall i :: 0 <= i < |r| ==> RouteOf(r[i].0) == route
  {
    if |fields| == 0 then []
    else
      var last := fields[|fields| - 1];
      Routed(fields[..|fields| - 1], route) + (if RouteOf(last.0) == route then [last] else [])
  }

  /** The values of the `Accept` fields, in order. */
  function AcceptValues(fields: seq<(string, string)>): seq<string> {
    if |fields| == 0 then []
    else
      var last := fields[|fields| - 1];
      AcceptValues(fields[..|fields| - 1]) + (if RouteOf(last.0) == AcceptRoute then [last.1] else [])
  }

  /** A field that makes the proxy throw: an `Accept` value `TryParseAdd`
      rejects, or a `Cookie` field whose cookie name is refused. */
  predicate FieldFails(f: (string, string), acceptOk: string -> bool,
                       parseFieldValues: string -> seq<(string, string)>) {
    || (RouteOf(f.0) == AcceptRoute && !acceptOk(f.1))
    || (RouteOf(f.0) == CookieRoute && CookieOf(parseFieldValues(f.1)).Failure?)
  }

  /** The exception a failing field throws. */
  function FieldException(f: (string, string)): string {
    if RouteOf(f.0) == AcceptRoute then "InvalidOperationException" else "CookieException"
  }

  /** Reference: the exception of the first failing field, if any. */
  function FirstFailure(fields: seq<(string, string)>, acceptOk: string -> bool,
                        parseFieldValues: string -> seq<(string, string)>): Option<string> {
    if |fields| == 0 then None
    else
      var last := fields[|fields| - 1];
      match FirstFailure(fields[..|fields| - 1], acceptOk, parseFieldValues)
      case Some(e) => Some(e)
      case None => if FieldFails(last, acceptOk, parseFieldValues) then Some(FieldException(last)) else None
  }

  /** No field fails exactly when there is no first failure. */
  lemma {:induction false} FirstFailureNone(fields: seq<(string, string)>, acceptOk: string -> bool,
                                            parseFieldValues: string -> seq<(string, string)>)
    ensures FirstFailure(fields, acceptOk, parseFieldValues).None? <==>
      forall i :: 0 <= i < |fields| ==> !FieldFails(fields[i], acceptOk, parseFieldValues)
    decreases |fields|
  {
    if |fields| > 0 {
      var init := fields[..|fields| - 1];
      FirstFailureNone(init, acceptOk, parseFieldValues);
      assert forall i :: 0 <= i < |init| ==> init[i] == fields[i];
    }
  }

  /** The split of the last `Authorization` field, which overwrites any earlier one. */
  function LastAuthorization(fields: seq<(string, string)>): Option<(string, Option<string>)> {
    if |fields| == 0 then None
    else if RouteOf(fields[|fields| - 1].0) == AuthorizationRoute then Some(SplitAuthorization(fields[|fields| - 1].1))
    else LastAuthorization(fields[..|fields| - 1])
  }

  /** The cookies of the `Cookie` fields that hold at least one pair, in order. */
  function Cookies(fields: seq<(string, string)>, parseFieldValues: string -> seq<(string, string)>): seq<Cookie> {
    if |fields| == 0 then []
    else
      var last := fields[|fields| - 1];
      var c := if RouteOf(last.0) == CookieRoute then CookieOf(parseFieldValues(last.1)) else Success(None);
      Cookies(fields[..|fields| - 1], parseFieldValues) + (if c.Success? && c.value.Some? then [c.value.value] else [])
  }

  /** Extending the fields by one: how the first failure grows. */
  lemma FailureStep(pre: seq<(string, string)>, f: (string, string), acceptOk: string -> bool,
                    parseFieldValues: string -> seq<(string, string)>)
    ensures FirstFailure(pre + [f], acceptOk, parseFieldValues) ==
      (if FirstFailure(pre, acceptOk, parseFieldValues).Some? then FirstFailure(pre, acceptOk, parseFieldValues)
       else if FieldFails(f, acceptOk, parseFieldValues) then Some(FieldException(f)) else None)
  {
    assert (pre + [f])[..|pre|] == pre;
  }

  /** Extending the fields by one: how each other reference definition grows. */
  lemma RoutingStep(pre: seq<(string, string)>, f: (string, string),
                    parseFieldValues: string -> seq<(string, string)>)
    ensures var s := pre + [f];
      && AcceptValues(s) == AcceptValues(pre) + (if RouteOf(f.0) == AcceptRoute then [f.1] else [])
      && LastAuthorization(s) == (if RouteOf(f.0) == AuthorizationRoute then Some(SplitAuthorization(f.1))
                                  else LastAuthorization(pre))
      && Cookies(s, parseFieldValues) == Cookies(pre, parseFieldValues) +
           (if RouteOf(f.0) == CookieRoute && CookieOf(parseFieldValues(f.1)).Success? &&
               CookieOf(parseFieldValues(f.1)).value.Some?
            then [CookieOf(parseFieldValues(f.1)).value.value] else [])
      && Routed(s, ContentRoute) == Routed(pre, ContentRoute) + (if RouteOf(f.0) == ContentRoute then [f] else [])
      && Routed(s, RequestRoute) == Routed(pre, RequestRoute) + (if RouteOf(f.0) == RequestRoute then [f] else [])
  {
    var s := pre + [f];
    assert s[..|pre|] == pre && s[|pre|] == f;
  }

  /** A failure in a prefix is the first failure of the whole. */
  lemma {:induction false} FirstFailureOfPrefix(fields: seq<(string, string)>, n: nat, acceptOk: string -> bool,
                                                parseFieldValues: string -> seq<(string, string)>)
    requires n <= |fields|
    requires FirstFailure(fields[..n], acceptOk, parseFieldValues).Some?
    ensures FirstFailure(fields, acceptOk, parseFieldValues) == FirstFailure(fields[..n], acceptOk, parseFieldValues)
    decreases |fields| - n
  {
    if n < |fields| {
      assert fields[..n + 1][..n] == fields[..n];
      FirstFailureOfPrefix(fields, n + 1, acceptOk, parseFieldValues);
    } else {
      assert fields[..n] == fields;
    }
  }

  /** What the incoming header fields become on the proxied request. */
  datatype Outgoing = Outgoing(accept: seq<string>, authorization: Option<(string, Option<string>)>,
                               cookies: seq<Cookie>, contentHeaders: seq<(string, string)>,
                               requestHeaders: seq<(string, string)>)

  /** The outgoing request the reference definitions give for `fields`. */
  function Expected(fields: seq<(string, string)>, hasContent: bool,
                    parseFieldValues: string -> seq<(string, string)>): Outgoing {
    Outgoing(AcceptValues(fields), LastAuthorization(fields), Cookies(fields, parseFieldValues),
             if hasContent then Routed(fields, ContentRoute) else [], Routed(fields, RequestRoute))
  }

  /** One pass of the `switch` of lines 332-412 for a field that does not fail. */
  function RouteField(o: Outgoing, f: (string, string), hasContent: bool,
                      parseFieldValues: string -> seq<(string, string)>): Outgoing {
    match RouteOf(f.0)
    case AcceptRoute => o.(accept := o.accept + [f.1])
    case AuthorizationRoute => o.(authorization := Some(SplitAuthorization(f.1)))
    case CookieRoute =>
      var c := CookieOf(parseFieldValues(f.1));
      if c.Success? && c.value.Some? then o.(cookies := o.cookies + [c.value.value]) else o
    case Ignored => o
    case ContentRoute => if hasContent then o.(contentHeaders := o.contentHeaders + [f]) else o
    case RequestRoute => o.(requestHeaders := o.requestHeaders + [f])
  }

  /** Routing one more field extends the expected request by that field. */
  lemma ExpectedStep(pre: seq<(string, string)>, f: (string, string), hasContent: bool,
                     parseFieldValues: string -> seq<(string, string)>)
    ensures Expected(pre + [f], hasContent, parseFieldValues) ==
      RouteField(Expected(pre, hasContent, parseFieldValues), f, hasContent, parseFieldValues)
  {
    RoutingStep(pre, f, parseFieldValues);
  }

  /** The loop of lines 330-414 over the incoming header fields: `Accept`
      values the client rejects abort the request, `Authorization` is split,
      `Cookie` fields become cookies (a refused cookie name aborts the
      request), content headers are kept only when the request has content,
      and every other field not dropped is copied.
      `acceptOk` stands for `TryParseAdd` and `parseFieldValues` for
      `CommonTypes.ParseFieldValues`. */
  method RouteHeaders(fields: seq<(string, string)>, hasContent: bool, acceptOk: string -> bool,
                      parseFieldValues: string -> seq<(string, string)>) returns (r: Result<Outgoing>)
    ensures r.Success? <==> forall i :: 0 <= i < |fields| ==> !FieldFails(fields[i], acceptOk, parseFieldValues)
    ensures r.Failure? ==> Some(r.exception) == FirstFailure(fields, acceptOk, parseFieldValues)
    ensures r.Failure? ==> r.exception == "InvalidOperationException" || r.exception == "CookieException"
    ensures r.Success? ==> r.value == Outgoing(AcceptValues(fields), LastAuthorization(fields),
      Cookies(fields, parseFieldValues),
      if hasContent then Routed(fields, ContentRoute) else [],
      Routed(fields, RequestRoute))
  {
    var out := Outgoing([], None, [], [], []);
    var i := 0;
    while i < |fields|
      invariant 0 <= i <= |fields|
      invariant FirstFailure(fields[..i], acceptOk, parseFieldValues).None?
      invariant out == Expected(fields[..i], hasContent, parseFieldValues)
    {
      var f := fields[i];
      assert fields[..i + 1] == fields[..i] + [f];
      FailureStep(fields[..i], f, acceptOk, parseFieldValues);
      if FieldFails(f, acceptOk, parseFieldValues) {
        FirstFailureOfPrefix(fields, i + 1, acceptOk, parseFieldValues);
        FirstFailureNone(fields, acceptOk, parseFieldValues);
        return Failure(FieldException(f));
      }
      ExpectedStep(fields[..i], f, hasContent, parseFieldValues);
      out := RouteField(out, f, hasContent, parseFieldValues);
      i := i + 1;
    }
    assert fields[..|fields|] == fields;
    FirstFailureNone(fields, acceptOk, parseFieldValues);
    r := Success(out);
  }

  /** Neither a dropped field nor a content field is ever copied to the
      request headers, and `Host` in particular never is. */
  lemma RequestHeadersExclude(fields: seq<(string, string)>)
    ensures forall i :: 0 <= i < |Routed(fields, RequestRoute)| ==>
      Routed(fields, RequestRoute)[i].0 !in IgnoredHeaders && Routed(fields, RequestRoute)[i].0 !in ContentHeaders
  {
    var r := Routed(fields, RequestRoute);
    forall i | 0 <= i < |r|
      ensures r[i].0 !in IgnoredHeaders && r[i].0 !in ContentHeaders
    {
      RouteTable(r[i].0);
    }
  }

  /** The header names the proxy sets itself after copying the incoming fields. */
  const ForwardingNames: set<string> := {"X-Forwarded-For", "X-Forwarded-Proto", "X-Forwarded-Host", "Forwarded", "Via"}

  /** A field with the given route is among the routed fields. */
  lemma {:induction false} RoutedKeeps(fields: seq<(string, string)>, i: nat, route: Route)
    requires i < |fields| && RouteOf(fields[i].0) == route
    ensures fields[i] in Routed(fields, route)
    decreases |fields|
  {
    if i < |fields| - 1 {
      var init := fields[..|fields| - 1];
      assert init[i] == fields[i];
      RoutedKeeps(init, i, route);
    }
  }

  /** An incoming forwarding field is copied verbatim to the request headers
      (line 411), to which the proxy then adds its own field of that name
      (lines 431-468). An incoming `X-Forwarded-For: a` thus leaves both as `a`
      and, from `ForwardingHeaders`, as `r, a`. */
  lemma IncomingForwardingCopied(fields: seq<(string, string)>, i: nat)
    requires i < |fields| && fields[i].0 in ForwardingNames
    ensures fields[i] in Routed(fields, RequestRoute)
  {
    ForwardingRoute(fields[i].0);
    RoutedKeeps(fields, i, RequestRoute);
  }

  /** No forwarding name is specially handled. */
  lemma ForwardingRoute(key: string)
    requires key in ForwardingNames
    ensures RouteOf(key) == RequestRoute
  {
    if key == "X-Forwarded-For" {
      assert RouteOf("X-Forwarded-For") == RequestRoute;
    } else if key == "X-Forwarded-Proto" {
      assert RouteOf("X-Forwarded-Proto") == RequestRoute;
    } else if key == "X-Forwarded-Host" {
      assert RouteOf("X-Forwarded-Host") == RequestRoute;
    } else if key == "Forwarded" {
      assert RouteOf("Forwarded") == RequestRoute;
    } else {
      assert RouteOf("Via") == RequestRoute;
    }
  }
  /** `Expires` is not among the content names of lines 399-406, so an
      incoming `Expires` field takes the default branch of line 411 and is
      handed to the request headers. */
  lemma ExpiresCopied(fields: seq<(string, string)>, i: nat)
    requires i < |fields| && fields[i].0 == "Expires"
    ensures fields[i] in Routed(fields, RequestRoute)
  {
    assert RouteOf("Expires") == RequestRoute;
    RoutedKeeps(fields, i, RequestRoute);
  }
}

=== FILE: script_uri_parameter.dfy ===
/** Validation of a URI-valued script parameter from a submitted data form
    (`ScriptUriParameterNode.SetParameter`). The check for an absolute URI
    (`Uri.TryCreate` with `UriKind.Absolute`) is a parameter; error texts are
    the source's default texts with their localisation string ids. */
module ScriptUriParameter {
  import opened Base

  /** The parameter node: its name in the form and whether it is required. */
  datatype ParameterNode = ParameterNode(parameterName: string, required: bool)

  /** A submitted form field; its `ValueString` may be `null`. */
  datatype Field = Field(valueString: Option<string>)

  /** A script variable value; `Null` is the .NET `null`. */
  datatype Value = Null | Str(s: string)

  /** An error added to the form result for a parameter. */
  datatype FormError = FormError(parameter: string, stringId: nat, text: string)

  function RequiredError(name: string): FormError {
    FormError(name, 42, "Required parameter.")
  }

  function InvalidError(name: string): FormError {
    FormError(name, 49, "Invalid value.")
  }

  /** The script variables and the errors collected so far. */
  datatype State = State(values: map<string, Value>, errors: seq<FormError>)

  /** The text submitted for the parameter; a missing field and a `null` value
      both read as the empty text. */
  function Submitted(form: map<string, Field>, name: string): string {
    if name in form then form[name].valueString.GetOr("") else ""
  }

  /** `SetParameter`, lines 84-113: no text sets the variable to `null` and
      reports a missing required parameter; a text is stored as it is and
      reported when it is not an absolute URI. */
  function SetParameter(node: ParameterNode, form: map<string, Field>, st: State,
                        isAbsoluteUri: string -> bool): (r: State)
    // only the parameter's own variable is written
    ensures r.values.Keys == st.values.Keys + {node.parameterName}
    ensures forall k :: k in st.values && k != node.parameterName ==> r.values[k] == st.values[k]
    // errors are only appended, at most one per call, always for this parameter
    ensures |st.errors| <= |r.errors| <= |st.errors| + 1 && r.errors[..|st.errors|] == st.errors
    ensures |r.errors| > |st.errors| ==> r.errors[|st.errors|].parameter == node.parameterName
    // no submitted text
    ensures Submitted(form, node.parameterName) == "" ==>
      r.values[node.parameterName] == Null &&
      (|r.errors| > |st.errors| <==> node.required) &&
      (node.required ==> r.errors[|st.errors|] == RequiredError(node.parameterName))
    // a submitted text
    ensures Submitted(form, node.parameterName) != "" ==>
      r.values[node.parameterName] == Str(Submitted(form, node.parameterName)) &&
      (|r.errors| > |st.errors| <==> !isAbsoluteUri(Submitted(form, node.parameterName))) &&
      (|r.errors| > |st.errors| ==> r.errors[|st.errors|] == InvalidError(node.parameterName))
  {
    var name := node.parameterName;
    if name !in form then
      var errors := if node.required then st.errors + [RequiredError(name)] else st.errors;
      State(st.values[name := Null], errors)
    else
      var s := form[name].valueString;
      if s.None? || s.value == "" then
        var errors := if node.required then st.errors + [RequiredError(name)] else st.errors;
        State(st.values[name := Null], errors)
      else
        var errors := if !isAbsoluteUri(s.value) then st.errors + [InvalidError(name)] else st.errors;
        State(st.values[name := Str(s.value)], errors)
  }

  /** The outcome depends on the submitted text alone: a missing field, a
      `null` value and an empty value are indistinguishable. */
  lemma OnlySubmittedTextMatters(node: ParameterNode, f1: map<string, Field>, f2: map<string, Field>,
                                 st: State, isAbsoluteUri: string -> bool)
    requires Submitted(f1, node.parameterName) == Submitted(f2, node.parameterName)
    ensures SetParameter(node, f1, st, isAbsoluteUri) == SetParameter(node, f2, st, isAbsoluteUri)
  {
  }

  /** An empty value behaves exactly like a missing field. */
  lemma EmptyIsMissing(node: ParameterNode, form: map<string, Field>, st: State, isAbsoluteUri: string -> bool)
    requires node.parameterName !in form
    ensures SetParameter(node, form[node.parameterName := Field(Some(""))], st, isAbsoluteUri)
         == SetParameter(node, form, st, isAbsoluteUri)
  {
    OnlySubmittedTextMatters(node, form[node.parameterName := Field(Some(""))], form, st, isAbsoluteUri);
  }
}

=== FILE: semantic.dfy ===
/** Two RDF terms of the semantic-web model: the `xsd:unsignedShort` literal
    (parsing with .NET `ushort.TryParse`, equality by lexical form) and the
    blank node (the `_:` label form of section 2.6 of the W3C RDF 1.1 Turtle
    recommendation, equality by node id). String hash codes are a parameter. */
module SemanticModel {
  import opened Base
  import opened Decimal

  newtype UInt16 = x: int | 0 <= x < 0x1_0000

  /** `StringType` of the unsigned-short literal. */
  const UnsignedShortType: string := "http://www.w3.org/2001/XMLSchema#unsignedShort"

  /** A literal: an unsigned short with the lexical form it was read from, or
      the custom literal `Parse` falls back to. */
  datatype Literal =
    | UInt16Literal(value: UInt16, stringValue: string)
    | CustomLiteral(stringValue: string, dataType: string, language: Option<string>)

  /** The element kinds a literal or blank node may be compared with. */
  datatype Element = LiteralElement(literal: Literal) | Blank(node: BlankNode) | UriNode(uri: string)

  // ---------------------------------------------------------------- ushort.TryParse

  /** The white space `NumberStyles.Integer` lets surround a number. */
  predicate IsNumberWhite(c: char) {
    c == ' ' || ('\t' <= c <= '\r')
  }

  function TrimWhiteStart(s: string): (r: string)
    ensures |r| <= |s| && r == s[|s| - |r|..]
    ensures |r| > 0 ==> !IsNumberWhite(r[0])
  {
    if |s| > 0 && IsNumberWhite(s[0]) then TrimWhiteStart(s[1..]) else s
  }

  function TrimWhiteEnd(s: string): (r: string)
    ensures |r| <= |s| && r == s[..|r|]
    ensures |r| > 0 ==> !IsNumberWhite(r[|r| - 1])
  {
    if |s| > 0 && IsNumberWhite(s[|s| - 1]) then TrimWhiteEnd(s[..|s| - 1]) else s
  }

  /** `ushort.TryParse(s)` with `NumberStyles.Integer`: optional white space,
      an optional sign, one or more decimal digits, optional white space; the
      value must fit in 16 bits, and a minus sign only admits zero. The source
      parses with the current culture's sign symbols; this model fixes them to
      `+` and `-`, as in the invariant culture. */
  function TryParseUInt16(s: string): (r: Option<UInt16>)
  {
    var t := TrimWhiteEnd(TrimWhiteStart(s));
    var negative := |t| > 0 && t[0] == '-';
    var digits := if |t| > 0 && (t[0] == '-' || t[0] == '+') then t[1..] else t;
    if |digits| == 0 || !AllDigits(digits) then None
    else
      var v := DigitsValue(digits);
      if negative then (if v == 0 then Some(0) else None)
      else if v < 0x1_0000 then Some(v as UInt16)
      else None
  }

  lemma TrimDigits(s: string)
    requires |s| > 0 && AllDigits(s)
    ensures TrimWhiteEnd(TrimWhiteStart(s)) == s
  {
    assert !IsNumberWhite(s[0]);
    assert !IsNumberWhite(s[|s| - 1]);
  }

  /** The decimal rendering of every 16-bit value parses back to it, and the
      rendering of a larger number is rejected. */
  lemma ParseRendering(v: nat)
    ensures v < 0x1_0000 ==> TryParseUInt16(NatToString(v)) == Some(v as UInt16)
    ensures v >= 0x1_0000 ==> TryParseUInt16(NatToString(v)) == None
  {
    var s := NatToString(v);
    TrimDigits(s);
    NatToStringValue(v);
  }

  /** `TryParse` accepts surrounding white space and a plus sign. */
  lemma ParseAcceptsWhiteAndSign()
    ensures TryParseUInt16(" 7\t") == Some(7)
    ensures TryParseUInt16("+7") == Some(7)
  {
    assert TrimWhiteStart(" 7\t") == "7\t";
    assert TrimWhiteEnd("7\t") == "7";
    assert TrimWhiteEnd(TrimWhiteStart("+7")) == "+7";
    assert "+7"[1..] == "7";
  }

  /** `TryParse` accepts leading zeros. */
  lemma ParseAcceptsLeadingZeros()
    ensures TryParseUInt16("007") == Some(7)
  {
    var s := "007";
    TrimDigits(s);
    assert s[0] != '-' && s[0] != '+';
    assert DigitsValue(s) == 7 by {
      assert s[..2] == "00" && s[..2][..1] == "0";
      assert DigitsValue("0") == 0;
      assert DigitsValue("00") == 0;
    }
  }

  /** `TryParse` accepts a negative zero. */
  lemma ParseAcceptsNegativeZero()
    ensures TryParseUInt16("-0") == Some(0)
  {
    var s := "-0";
    assert TrimWhiteStart(s) == s;
    assert TrimWhiteEnd(s) == s;
    assert s[1..] == "0";
    assert DigitsValue("0") == 0;
  }

  /** `TryParse` rejects a negative number, the empty string and a number
      beyond 16 bits. */
  lemma ParseRejects()
    ensures TryParseUInt16("-1") == None
    ensures TryParseUInt16("") == None
    ensures TryParseUInt16("65536") == None
  {
    RejectsMinusOne();
    RejectsOverflow();
  }

  lemma RejectsMinusOne()
    ensures TryParseUInt16("-1") == None
  {
    var s := "-1";
    assert TrimWhiteStart(s) == s;
    assert TrimWhiteEnd(s) == s;
    assert s[1..] == "1";
    assert DigitsValue("1") == 1;
  }

  lemma RejectsOverflow()
    ensures TryParseUInt16("65536") == None
  {
    var s := "65536";
    TrimDigits(s);
    assert s[0] != '-' && s[0] != '+';
    assert "65"[..1] == "6" && DigitsValue("65") == 65;
    assert "655"[..2] == "65" && DigitsValue("655") == 655;
    assert "6553"[..3] == "655" && DigitsValue("6553") == 6553;
    assert s[..4] == "6553" && DigitsValue(s) == 65536;
  }

  // ---------------------------------------------------------------- UInt16Literal

  /** `new UInt16Literal(Value)`: the lexical form is the decimal rendering. */
  function FromValue(v: UInt16): (lit: Literal)
    ensures lit.UInt16Literal? && lit.value == v
    ensures TryParseUInt16(lit.stringValue) == Some(v)
  {
    ParseRendering(v as nat);
    UInt16Literal(v, NatToString(v as nat))
  }

  /** `UInt16Literal.Parse`: an unsigned-short literal keeping the exact input
      text when `TryParse` accepts it, otherwise a custom literal carrying the
      value, data type and language. */
  function Parse(value: string, dataType: string, language: Option<string>): (lit: Literal)
    ensures lit.UInt16Literal? <==> TryParseUInt16(value).Some?
    ensures lit.UInt16Literal? ==> Some(lit.value) == TryParseUInt16(value)
    ensures lit.stringValue == value
    ensures lit.CustomLiteral? ==> lit.dataType == dataType && lit.language == language
  {
    match TryParseUInt16(value)
    case Some(i) => UInt16Literal(i, value)
    case None => CustomLiteral(value, dataType, language)
  }

  /** `UInt16Literal.Equals`: another unsigned-short literal with the same
      lexical form. */
  predicate LiteralEquals(lit: Literal, obj: Element)
    requires lit.UInt16Literal?
  {
    obj.LiteralElement? && obj.literal.UInt16Literal? && obj.literal.stringValue == lit.stringValue
  }

  /** `UInt16Literal.GetHashCode`: the hash of the lexical form. */
  function LiteralHash(lit: Literal, stringHash: string -> int): int {
    stringHash(lit.stringValue)
  }

  /** Parsing the rendering of a value gives a literal equal to the one built
      from the value. */
  lemma ParseRoundTrip(v: UInt16, dataType: string, language: Option<string>)
    ensures Parse(NatToString(v as nat), dataType, language) == FromValue(v)
    ensures LiteralEquals(Parse(NatToString(v as nat), dataType, language), LiteralElement(FromValue(v)))
  {
    ParseRendering(v as nat);
  }

  /** Equality looks at the lexical form only: `007` and `7` denote the same
      number yet the literals are unequal. */
  lemma LexicalEquality()
    ensures Parse("007", UnsignedShortType, None) == UInt16Literal(7, "007")
    ensures !LiteralEquals(Parse("007", UnsignedShortType, None), LiteralElement(FromValue(7)))
  {
    ParseAcceptsLeadingZeros();
    assert NatToString(7) == "7";
  }

  /** Literal equality is an equivalence on unsigned-short literals, never
      holds against other elements, and equal literals hash alike. */
  lemma LiteralEqualsProperties(a: Literal, b: Literal, c: Literal, other: Element, stringHash: string -> int)
    requires a.UInt16Literal? && b.UInt16Literal? && c.UInt16Literal?
    requires !other.LiteralElement? || other.literal.CustomLiteral?
    ensures LiteralEquals(a, LiteralElement(a))
    ensures LiteralEquals(a, LiteralElement(b)) ==> LiteralEquals(b, LiteralElement(a))
    ensures LiteralEquals(a, LiteralElement(b)) && LiteralEquals(b, LiteralElement(c)) ==> LiteralEquals(a, LiteralElement(c))
    ensures !LiteralEquals(a, other)
    ensures LiteralEquals(a, LiteralElement(b)) ==> LiteralHash(a, stringHash) == LiteralHash(b, stringHash)
  {
  }

  // ---------------------------------------------------------------- BlankNode

  datatype BlankNode = BlankNode(nodeId: string)

  /** `ToString`: the Turtle label `_:` followed by the node id. */
  function NodeToString(n: BlankNode): string {
    "_:" + n.nodeId
  }

  /** Reads a blank-node label back: the text after a leading `_:`. */
  function ParseLabel(s: string): Option<BlankNode> {
    if |s| >= 2 && s[..2] == "_:" then Some(BlankNode(s[2..])) else None
  }

  /** The label determines the node: reading it back gives the node, so
      distinct ids give distinct labels. */
  lemma LabelRoundTrip(n: BlankNode, m: BlankNode)
    ensures ParseLabel(NodeToString(n)) == Some(n)
    ensures n != m ==> NodeToString(n) != NodeToString(m)
  {
    assert NodeToString(n)[2..] == n.nodeId;
    assert NodeToString(m)[2..] == m.nodeId;
  }

  /** `BlankNode.Equals`: another blank node with the same id. */
  predicate NodeEquals(n: BlankNode, obj: Element) {
    obj.Blank? && obj.node.nodeId == n.nodeId
  }

  /** `BlankNode.GetHashCode`: the hash of the id. */
  function NodeHash(n: BlankNode, stringHash: string -> int): int {
    stringHash(n.nodeId)
  }

  /** Blank-node equality is an equivalence, coincides with equal labels,
      never holds against a non-blank element, and equal nodes hash alike. */
  lemma NodeEqualsProperties(a: BlankNode, b: BlankNode, c: BlankNode, other: Element, stringHash: string -> int)
    requires !other.Blank?
    ensures NodeEquals(a, Blank(a))
    ensures NodeEquals(a, Blank(b)) ==> NodeEquals(b, Blank(a))
    ensures NodeEquals(a, Blank(b)) && NodeEquals(b, Blank(c)) ==> NodeEquals(a, Blank(c))
    ensures NodeEquals(a, Blank(b)) <==> NodeToString(a) == NodeToString(b)
    ensures !NodeEquals(a, other)
    ensures NodeEquals(a, Blank(b)) ==> NodeHash(a, stringHash) == NodeHash(b, stringHash)
  {
    LabelRoundTrip(a, b);
  }
}

=== FILE: text.dfy ===
/** Ordinal string helpers shared by the models: prefix test, first index of a
    character, ASCII lower-casing, .NET white space, trimming, and splitting
    at a separator together with its inverse. */
module Text {

  /** `p` is a prefix of `s` (ordinal `StartsWith`). */
  predicate IsPrefix(p: string, s: string) {
    |p| <= |s| && s[..|p|] == p
  }

  /** Index of the first occurrence of `c` in `s`, or -1 (`String.IndexOf(char)`). */
  function IndexOf(s: string, c: char): (r: int)
    ensures -1 <= r < |s|
    ensures r == -1 <==> c !in s
    ensures 0 <= r ==> s[r] == c && c !in s[..r]
  {
    if |s| == 0 then -1
    else if s[0] == c then 0
    else
      var k := IndexOf(s[1..], c);
      assert s[1..][..if k < 0 then 0 else k] == s[1..1 + (if k < 0 then 0 else k)];
      if k < 0 then -1 else k + 1
  }

  lemma IndexOfPrefixFree(a: string, c: char, b: string)
    requires c !in a
    ensures IndexOf(a + [c] + b, c) == |a|
  {
    var s := a + [c] + b;
    assert s[|a|] == c;
    assert s[..|a|] == a;
  }

  /** Upper-case ASCII letters mapped to lower case; every other character
      kept (the culture-sensitive `ToLower` restricted to ASCII). */
  function AsciiLower(s: string): (r: string)
    ensures |r| == |s|
    ensures forall i :: 0 <= i < |s| && 'A' <= s[i] <= 'Z' ==> r[i] as int == s[i] as int + 32
    ensures forall i :: 0 <= i < |s| && !('A' <= s[i] <= 'Z') ==> r[i] == s[i]
  {
    seq(|s|, i requires 0 <= i < |s| => LowerChar(s[i]))
  }

  function LowerChar(c: char): char {
    if 'A' <= c <= 'Z' then (c as int + 32) as char else c
  }

  /** The characters .NET's `char.IsWhiteSpace` accepts. */
  predicate IsWhiteSpace(c: char) {
    var n := c as int;
    || 0x09 <= n <= 0x0D || n == 0x20 || n == 0x85 || n == 0xA0 || n == 0x1680
    || 0x2000 <= n <= 0x200A
    || n == 0x2028 || n == 0x2029 || n == 0x202F || n == 0x205F || n == 0x3000
  }

  /** `String.TrimStart()`: drops leading white space. */
  function TrimStart(s: string): (r: string)
    ensures |r| <= |s| && r == s[|s| - |r|..]
    ensures forall i :: 0 <= i < |s| - |r| ==> IsWhiteSpace(s[i])
    ensures |r| > 0 ==> !IsWhiteSpace(r[0])
  {
    if |s| > 0 && IsWhiteSpace(s[0]) then TrimStart(s[1..]) else s
  }

  /** Splits `s` at every occurrence of `sep`; always yields at least one part. */
  function Split(s: string, sep: char): (parts: seq<string>)
    ensures |parts| >= 1
    decreases |s|
  {
    var i := IndexOf(s, sep);
    if i < 0 then [s] else [s[..i]] + Split(s[i + 1..], sep)
  }

  /** Joins non-empty `parts` with `sep` between consecutive parts. */
  function Join(parts: seq<string>, sep: char): string
    requires |parts| >= 1
  {
    if |parts| == 1 then parts[0] else parts[0] + [sep] + Join(parts[1..], sep)
  }

  /** `Split` undoes `Join` when no part contains the separator. */
  lemma {:induction false} SplitJoin(parts: seq<string>, sep: char)
    requires |parts| >= 1
    requires forall i :: 0 <= i < |parts| ==> sep !in parts[i]
    ensures Split(Join(parts, sep), sep) == parts
  {
    if |parts| == 1 {
      assert IndexOf(parts[0], sep) == -1;
    } else {
      var rest := Join(parts[1..], sep);
      assert sep !in parts[0];
      SplitAt(parts[0], sep, rest);
      assert forall i :: 0 <= i < |parts| - 1 ==> sep !in parts[1..][i];
      SplitJoin(parts[1..], sep);
      assert parts == [parts[0]] + parts[1..];
    }
  }

  /** The first part of a split ends at the first separator. */
  lemma SplitAt(a: string, c: char, b: string)
    requires c !in a
    ensures Split(a + [c] + b, c) == [a] + Split(b, c)
  {
    var s := a + [c] + b;
    IndexOfPrefixFree(a, c, b);
    assert s[..|a|] == a && s[|a| + 1..] == b;
  }

  /** A leading non-separator character belongs to the first part. */
  lemma SplitCons(x: char, v: string, c: char)
    requires x != c
    ensures Split([x] + v, c) == [[x] + Split(v, c)[0]] + Split(v, c)[1..]
  {
    var s := [x] + v;
    var j := IndexOf(v, c);
    if j >= 0 {
      var a, b := v[..j], v[j + 1..];
      assert v == a + [c] + b;
      assert s == ([x] + a) + [c] + b;
      SplitAt(a, c, b);
      SplitAt([x] + a, c, b);
    } else {
      assert c !in s;
      assert IndexOf(s, c) == -1;
    }
  }

  /** Splits at the first `sep`: the text before it and the text after it. */
  function SplitFirst(s: string, sep: char): (r: (string, string))
    ensures sep in s ==> s == r.0 + [sep] + r.1 && sep !in r.0
    ensures sep !in s ==> r == (s, "")
  {
    var i := IndexOf(s, sep);
    if i < 0 then (s, "") else (s[..i], s[i + 1..])
  }

  /** `SplitFirst` finds the first separator, so it recovers the two sides of
      a concatenation whose left side is free of the separator. */
  lemma SplitFirstAt(a: string, c: char, b: string)
    requires c !in a
    ensures SplitFirst(a + [c] + b, c) == (a, b)
  {
    IndexOfPrefixFree(a, c, b);
    var s := a + [c] + b;
    assert s[..|a|] == a && s[|a| + 1..] == b;
  }

  /** Index of the last occurrence of `c` in `s`, or -1 (`String.LastIndexOf(char)`). */
  function LastIndexOf(s: string, c: char): (r: int)
    ensures -1 <= r < |s|
    ensures 0 <= r ==> s[r] == c
    ensures forall j :: r < j < |s| ==> s[j] != c
  {
    if |s| == 0 then -1
    else if s[|s| - 1] == c then |s| - 1
    else LastIndexOf(s[..|s| - 1], c)
  }

  /** Splits at the last `sep`: the text before it and the text after it. */
  function SplitLast(s: string, sep: char): (r: (string, string))
    ensures sep in s ==> s == r.0 + [sep] + r.1 && sep !in r.1
    ensures sep !in s ==> r == ("", s)
  {
    var i := LastIndexOf(s, sep);
    if i < 0 then ("", s)
    else
      assert s == s[..i] + [sep] + s[i + 1..];
      (s[..i], s[i + 1..])
  }

  /** `SplitLast` recovers the two sides of a concatenation whose right side is
      free of the separator. */
  lemma SplitLastAt(a: string, c: char, b: string)
    requires c !in b
    ensures SplitLast(a + [c] + b, c) == (a, b)
  {
    var s := a + [c] + b;
    assert s[|a|] == c;
    assert forall j :: |a| < j < |s| ==> s[j] == b[j - |a| - 1];
    assert s[|a| + 1..] == b;
    assert s[..|a|] == a;
  }
}

=== FILE: utf8.dfy ===
/** UTF-8 as in RFC 3629 (`System.Text.Encoding.UTF8.GetBytes`): the encoding
    of one Unicode scalar value, of a string, and the decoder that inverts it. */
module Utf8 {
  import opened Base

  /** Bytes of one scalar value: 1 to 4 bytes by the magnitude of the code point. */
  function EncodeScalar(c: char): (bs: seq<byte>)
    ensures 1 <= |bs| <= 4
    ensures |bs| == 1 <==> c as int < 0x80
    ensures |bs| == 1 ==> bs[0] as int == c as int
  {
    var n := c as int;
    if n < 0x80 then [n as byte]
    else if n < 0x800 then [(0xC0 + n / 64) as byte, (0x80 + n % 64) as byte]
    else if n < 0x10000 then
      [(0xE0 + n / 4096) as byte, (0x80 + (n / 64) % 64) as byte, (0x80 + n % 64) as byte]
    else
      [(0xF0 + n / 262144) as byte, (0x80 + (n / 4096) % 64) as byte,
       (0x80 + (n / 64) % 64) as byte, (0x80 + n % 64) as byte]
  }

  /** Bytes of a string: the encodings of its scalar values, in order. */
  function Encode(s: string): seq<byte>
    decreases |s|
  {
    if |s| == 0 then [] else EncodeScalar(s[0]) + Encode(s[1..])
  }

  /** Encoding distributes over concatenation. */
  lemma {:induction false} EncodeConcat(a: string, b: string)
    ensures Encode(a + b) == Encode(a) + Encode(b)
    decreases |a|
  {
    if |a| == 0 {
      assert a + b == b;
    } else {
      assert (a + b)[1..] == a[1..] + b;
      EncodeConcat(a[1..], b);
    }
  }

  /** Every byte of a multi-byte sequence is at least 0x80, so an ASCII
      character absent from `s` has its byte absent from the encoding. */
  lemma {:induction false} AsciiByteAbsent(s: string, c: char)
    requires c as int < 0x80 && c !in s
    ensures (c as int) as byte !in Encode(s)
    decreases |s|
  {
    if |s| > 0 {
      AsciiByteAbsent(s[1..], c);
      var head := EncodeScalar(s[0]);
      assert forall i :: 0 <= i < |head| ==> head[i] != (c as int) as byte by {
        if s[0] as int >= 0x80 {
          assert forall i :: 0 <= i < |head| ==> head[i] as int >= 0x80;
        }
      }
    }
  }

  /** Length of the sequence a leading byte announces; 0 for a byte that cannot lead. */
  function SequenceLength(b: byte): nat {
    if b < 0x80 then 1
    else if 0xC0 <= b < 0xE0 then 2
    else if 0xE0 <= b < 0xF0 then 3
    else if 0xF0 <= b < 0xF8 then 4
    else 0
  }

  predicate IsContinuation(b: byte) {
    0x80 <= b < 0xC0
  }

  /** Decodes one well-formed, shortest-form sequence to a scalar value. */
  function DecodeScalar(bs: seq<byte>): Option<char>
    requires 1 <= |bs| <= 4 && SequenceLength(bs[0]) == |bs|
  {
    if exists i :: 1 <= i < |bs| && !IsContinuation(bs[i]) then None
    else
      var n :=
        if |bs| == 1 then bs[0] as int
        else if |bs| == 2 then (bs[0] as int - 0xC0) * 64 + (bs[1] as int - 0x80)
        else if |bs| == 3 then
          (bs[0] as int - 0xE0) * 4096 + (bs[1] as int - 0x80) * 64 + (bs[2] as int - 0x80)
        else
          (bs[0] as int - 0xF0) * 262144 + (bs[1] as int - 0x80) * 4096
          + (bs[2] as int - 0x80) * 64 + (bs[3] as int - 0x80);
      var least := if |bs| == 1 then 0 else if |bs| == 2 then 0x80 else if |bs| == 3 then 0x800 else 0x10000;
      if n < least || n > 0x10FFFF || (0xD800 <= n < 0xE000) then None
      else Some(n as char)
  }

  /** Decodes a byte sequence; `None` when it is not well-formed UTF-8. */
  function Decode(bs: seq<byte>): Option<string>
    decreases |bs|
  {
    if |bs| == 0 then Some([])
    else
      var len := SequenceLength(bs[0]);
      if len == 0 || len > |bs| then None
      else
        match DecodeScalar(bs[..len])
        case None => None
        case Some(c) =>
          match Decode(bs[len..])
          case None => None
          case Some(rest) => Some([c] + rest)
  }

  lemma DecodeEncodeScalar(c: char)
    ensures SequenceLength(EncodeScalar(c)[0]) == |EncodeScalar(c)|
    ensures DecodeScalar(EncodeScalar(c)) == Some(c)
  {
    var n := c as int;
    if n < 0x80 {
    } else if n < 0x800 {
      DecodeTwo(c);
    } else if n < 0x10000 {
      DecodeThree(c);
    } else {
      DecodeFour(c);
    }
  }

  lemma DecodeTwo(c: char)
    requires 0x80 <= c as int < 0x800
    ensures SequenceLength(EncodeScalar(c)[0]) == 2
    ensures DecodeScalar(EncodeScalar(c)) == Some(c)
  {
    var n := c as int;
    var bs := EncodeScalar(c);
    var q, r := n / 64, n % 64;
    assert q * 64 + r == n;
    assert bs[0] as int == 0xC0 + q && bs[1] as int == 0x80 + r;
    assert !(exists i :: 1 <= i < |bs| && !IsContinuation(bs[i]));
  }

  lemma DecodeThree(c: char)
    requires 0x800 <= c as int < 0x10000
    ensures SequenceLength(EncodeScalar(c)[0]) == 3
    ensures DecodeScalar(EncodeScalar(c)) == Some(c)
  {
    var n := c as int;
    var bs := EncodeScalar(c);
    var q, m, r := n / 4096, (n / 64) % 64, n % 64;
    assert q * 4096 + m * 64 + r == n;
    assert bs[0] as int == 0xE0 + q && bs[1] as int == 0x80 + m && bs[2] as int == 0x80 + r;
    assert !(exists i :: 1 <= i < |bs| && !IsContinuation(bs[i]));
  }

  lemma DecodeFour(c: char)
    requires 0x10000 <= c as int
    ensures SequenceLength(EncodeScalar(c)[0]) == 4
    ensures DecodeScalar(EncodeScalar(c)) == Some(c)
  {
    var n := c as int;
    var q, m1, m2, r := n / 262144, (n / 4096) % 64, (n / 64) % 64, n % 64;
    FourDigits(n);
    assert EncodeScalar(c) == FourBytes(q, m1, m2, r);
    DecodeFourBytes(q, m1, m2, r);
  }

  /** The base-64 digits of a four-byte code point. */
  lemma FourDigits(n: int)
    requires 0x10000 <= n < 0x110000
    ensures 0 <= n / 262144 < 8
    ensures n / 262144 * 262144 + (n / 4096) % 64 * 4096 + (n / 64) % 64 * 64 + n % 64 == n
  {
    var a := n / 64;
    var b := a / 64;
    assert n == a * 64 + n % 64;
    assert a == b * 64 + a % 64;
    assert b == n / 4096;
    assert b / 64 == n / 262144;
    assert b == b / 64 * 64 + b % 64;
    assert 0 <= n % 64 < 64 && 0 <= a % 64 < 64 && 0 <= b % 64 < 64;
    assert 1024 <= a < 17408;
    assert 16 <= b < 272;
    assert 0 <= b / 64 < 8;
  }

  function FourBytes(q: int, m1: int, m2: int, r: int): seq<byte>
    requires 0 <= q < 8 && 0 <= m1 < 64 && 0 <= m2 < 64 && 0 <= r < 64
  {
    [(0xF0 + q) as byte, (0x80 + m1) as byte, (0x80 + m2) as byte, (0x80 + r) as byte]
  }

  lemma DecodeFourBytes(q: int, m1: int, m2: int, r: int)
    requires 0 <= q < 8 && 0 <= m1 < 64 && 0 <= m2 < 64 && 0 <= r < 64
    requires var n := q * 262144 + m1 * 4096 + m2 * 64 + r;
      0x10000 <= n <= 0x10FFFF
    ensures SequenceLength(FourBytes(q, m1, m2, r)[0]) == 4
    ensures DecodeScalar(FourBytes(q, m1, m2, r)) == Some((q * 262144 + m1 * 4096 + m2 * 64 + r) as char)
  {
    var bs := FourBytes(q, m1, m2, r);
    assert forall i :: 1 <= i < 4 ==> IsContinuation(bs[i]);
  }

  /** Decoding recovers every encoded string, so the encoding is injective. */
  lemma {:induction false} DecodeEncode(s: string)
    ensures Decode(Encode(s)) == Some(s)
    decreases |s|
  {
    if |s| > 0 {
      var head := EncodeScalar(s[0]);
      var bs := Encode(s);
      DecodeEncodeScalar(s[0]);
      assert bs[..|head|] == head;
      assert bs[|head|..] == Encode(s[1..]);
      DecodeEncode(s[1..]);
      assert s == [s[0]] + s[1..];
    }
  }

  lemma EncodeInjective(a: string, b: string)
    requires Encode(a) == Encode(b)
    ensures a == b
  {
    DecodeEncode(a);
    DecodeEncode(b);
  }
}
